=== FILE: README.md ===
# raspi-opengl in Dafny

A model of the pure logic in raspi-opengl, a Ruby framework for OpenGL|ES on
the Raspberry Pi, and of its three demo programs. Every native EGL, GLES and
dispmanx call is either recorded in a log of `GL.Call` values or left out.
What remains is modelled and proved:

- **The framework class `RaspiGL`** (`raspigl.dfy`):
  - option merging, and `checkopts` normalising the EGL attribute list so it ends with `EGL_NONE`;
  - the once-per-second frame-rate state machine of `loop`;
  - `width`/`height` defaulting, and the 16.16 fixed-point dispmanx source rectangle;
  - texture and coordinate buffer construction, including FFI's integer and float conversions;
  - the messages of `assert` and `assert_egl`.
- **The stand-alone cube demo** (`hello_triangle_original.dfy`):
  - the `CubeState` record and the angle-wrapping and distance-clipping rules;
  - `reset_model`/`update_model` as transitions, and the render loop's progress counter as a method;
  - loading three images onto six textures;
  - the per-frame draw log and its agreement with the geometry tables.
- **The framework version of the cube** (`hello_triangle_rubified.dfy`): the same rules transcribed a second time, proved equal to the original's, plus `tick`.
- **The marquee demo** (`marquee.dfy`):
  - quad and coordinate set-up and vertical centring;
  - the scroll position's wrap-around and its invariant.
- **The cube tables** (`cube_geometry.dfy`): positions, texture coordinates and colours for the 24 vertices.

Shared pieces:

- `common.dfy`: `Option`, `Result`, bytes, and the C `int` range.
- `digits.dfy`: decimal and hexadecimal rendering, with a parser proved to invert it.
- `egl.dfy`: the EGL enumerants in use.
- `gl.dfy`: the call log and what it draws.
- `cube_model.dfy`: the cube's pose invariant, reset pose and texture files.

Angles and distances are `real`. Every literal involved is an exact binary
fraction, so the comparisons are exact.

**Angle range.** An angle produced by `inc_and_wrap_angle` lies in the closed
range [0, 360], not [0, 360). A sum of exactly 360 becomes 0, and a sum of
exactly 0 becomes 360 (the `<= 0` branch). So a pose resting on 0 with a zero
increment alternates between 0 and 360. The model follows the code:
`CubeModel.Valid` admits 360, and `HelloTriangleOriginal.WrapExamples` shows
both jumps.

## Model

| member | source | states |
|---|---|---|
| `Digits.Render` | lib/raspigl.rb:264 | `%x` digits: at least one, all digits of the base, "0" exactly for zero, no leading zero otherwise |
| `Digits.ParseRender` | lib/raspigl.rb:264 | parsing the rendered digits gives the number back |
| `Digits.RenderInjective` | examples/hello_triangle_rubified.rb:21 | distinct frame rates print differently |
| `Egl.Rgba8888Layout` | lib/raspigl.rb:14-21 | the default attribute list is five key/value pairs and `EGL_NONE`, 11 ints, every channel 8 bits |
| `RaspiGL.MergeOptions` | lib/raspigl.rb:30 | the merged keys are the union; user values win; default keys the user did not give keep their defaults |
| `RaspiGL.MergeIdempotent` | lib/raspigl.rb:30 | merging the same user options again changes nothing; merging none gives the defaults |
| `RaspiGL.TerminateAttributes` | lib/raspigl.rb:274-276 | the list ends with `EGL_NONE`, keeps the input as a prefix, grows by at most one, and is unchanged if already terminated |
| `RaspiGL.TerminateIdempotent` | lib/raspigl.rb:273-278 | normalising twice equals normalising once |
| `RaspiGL.TerminateIsShortest` | lib/raspigl.rb:274-276 | nothing is appended that any terminated extension of the input could do without |
| `RaspiGL.CheckOpts` | lib/raspigl.rb:273-278 | raises `NoMethodError` exactly when the attributes are missing or not an array; otherwise only that key changes, to the normalised list, and a warning is issued exactly when it was unterminated |
| `RaspiGL.InitializeDefaults` | lib/raspigl.rb:11-31 | without a user attribute list the default is used unchanged and no warning is issued; un-overridden defaults survive |
| `RaspiGL.Initialize` | lib/raspigl.rb:29-31 | raises `NoMethodError` exactly when the user's `:egl_config_attributes` is not an Array; otherwise every option is the user's if given, else the default, and the attribute list is the user's (else the default) terminated with `EGL_NONE` |
| `RaspiGL.InitializeTerminates` | lib/raspigl.rb:29-31 | any user attribute array ends with `EGL_NONE` after initialisation and keeps the user's entries as its prefix |
| `RaspiGL.Start` | lib/raspigl.rb:63-66 | the first call starts from counter 0, frame rate 0, no event, and the current second |
| `RaspiGL.Step` | lib/raspigl.rb:67-77 | `:new_second` is raised exactly when a second has passed; then fps = counter including this frame, the counter resets and `last_second` becomes now; otherwise the counter grows by one and fps and `last_second` stay |
| `RaspiGL.Loop` | lib/raspigl.rb:63-77 | the first call counts one frame, reporting fps 1 if the second clock reading is a second later; every later call is one `Step` of the existing state at the current reading, so `FramesAreCounted` and `ReportsAtMostOncePerSecond` apply to the frames it runs |
| `RaspiGL.FramesAreCounted` | lib/raspigl.rb:70-76 | over any run, reported frame rates plus the pending counter equal the frames run: none is lost or counted twice |
| `RaspiGL.ReportsAtMostOncePerSecond` | lib/raspigl.rb:68-76 | over any run of frames, each `:new_second` comes at least one second after the previous one (the first at least one second after `last_second`), and the run ends with `last_second` at the latest report |
| `RaspiGL.LastSecondMonotone` | lib/raspigl.rb:71-73 | on a clock that does not go backwards, `last_second` never moves backwards or into the future |
| `RaspiGL.FpsReport` | examples/hello_triangle_rubified.rb:20-22 | a line is printed exactly on `:new_second`; it reads "FPS: " followed by digits that parse back to the frame rate |
| `RaspiGL.Dimension` | lib/raspigl.rb:95 | always truthy: the option when truthy, else the screen size once known, else 0 |
| `RaspiGL.Width` | lib/raspigl.rb:94-96 | the `:width` option when it is truthy; otherwise (absent, `nil` or `false`) the screen width once known, else 0 |
| `RaspiGL.Height` | lib/raspigl.rb:103-105 | the `:height` option when it is truthy; otherwise (absent, `nil` or `false`) the screen height once known, else 0 |
| `RaspiGL.ToCInt` | lib/raspigl.rb:192-200 | FFI accepts exactly the integers of a C `int` (`RangeError` otherwise), truncates a Float toward zero and range-checks the result, and rejects nil, booleans and Arrays with `TypeError` |
| `RaspiGL.ShiftLeft16` | lib/raspigl.rb:199-200 | `<< 16` multiplies an Integer by 65536, appends 16 to an Array (`Array#<<`), and raises `NoMethodError` on nil, booleans and Floats |
| `RaspiGL.InitRects` | lib/raspigl.rb:192-200 | succeeds exactly when both sizes are Integers whose 16.16 values fit a C `int`; both rectangles have origin (0,0), and the source is the destination scaled by 2^16 |
| `RaspiGL.FixedRangeImpliesIntRange` | lib/raspigl.rb:199-200 | a size whose fixed-point value fits a C `int` is itself below 32768 in magnitude |
| `RaspiGL.SourceRectDecodes` | lib/raspigl.rb:192-200 | the source rectangle's fixed-point sizes are whole numbers that decode to the destination's pixel sizes |
| `RaspiGL.DefaultRectsCoverScreen` | lib/raspigl.rb:185-200 | without truthy size options (absent, `nil` or `false`) both rectangles cover the whole screen, for screens up to 32767 pixels a side |
| `RaspiGL.LoadTextureFromString` | lib/raspigl.rb:122-126 | a char buffer of the string's size holding its bytes |
| `RaspiGL.LoadTextureFromFile` | lib/raspigl.rb:112-115 | the file's bytes in a buffer, or a missing-file error exactly when the file is absent |
| `RaspiGL.ToCFloat` | lib/raspigl.rb:140 | Floats and Integers convert to their value; anything else is a `TypeError` |
| `RaspiGL.ToCInts` | lib/raspigl.rb:137 | succeeds exactly when every element converts, and then holds each element's conversion in order; otherwise raises the error of the first element that does not convert |
| `RaspiGL.ToCFloats` | lib/raspigl.rb:140 | succeeds exactly when every element converts, and then holds each element's conversion in order; otherwise raises the error of the first element that does not convert |
| `RaspiGL.LoadCoords` | lib/raspigl.rb:133-143 | `nil` exactly for an empty array or a first element that is neither Fixnum nor Float; otherwise a buffer of the input's length, int or float by the first element, holding the converted elements, or the conversion error FFI raises, which happens exactly when some element does not convert and is the first such element's error |
| `RaspiGL.LoadCoordsHomogeneous` | lib/raspigl.rb:133-143 | an all-Fixnum array gives an int buffer of exactly those numbers; an all-Float array gives a float buffer of exactly those values |
| `RaspiGL.FloatsLoad` | lib/raspigl.rb:133-143 | an array of Floats loads into a float buffer holding exactly those numbers, in order |
| `RaspiGL.Assert` | lib/raspigl.rb:257-261 | raises `RaspiGLError` with the message exactly when the condition is false |
| `RaspiGL.AssertEglMessage` | lib/raspigl.rb:263-269 | "msg (eglGetError returned 0x…)" with a message, the EGL part alone without |
| `RaspiGL.AssertEgl` | lib/raspigl.rb:263-271 | fails exactly when the condition is false, with the composed message |
| `RaspiGL.EglCodeRecoverable` | lib/raspigl.rb:264-269 | the hex digits after the prefix in the message parse back to the EGL error code |
| `CubeGeometry.TablesAreRectangular` | cube_texture_and_coords.rb:20-124 | each table has six faces of four vertices |
| `CubeGeometry.Vertices` | cube_texture_and_coords.rb:20-57 | 24 vertices in drawing order |
| `CubeGeometry.VertexTexCoords` | cube_texture_and_coords.rb:60-91 | one texture coordinate per vertex |
| `CubeGeometry.VertexColours` | cube_texture_and_coords.rb:93-124 | one colour per vertex |
| `CubeGeometry.Quadx` | cube_texture_and_coords.rb:20-57 | `$quadx` holds 72 entries, and entry 3v + a is coordinate a (x, y, z) of vertex v |
| `CubeGeometry.TexCoords` | cube_texture_and_coords.rb:60-91 | `$texCoords` holds 48 entries, and entry 2v + k is component k (s, t) of vertex v's texture coordinate |
| `CubeGeometry.ColorsF` | cube_texture_and_coords.rb:93-124 | `$colorsf` holds 96 entries, and entry 4v + c is channel c (r, g, b, a) of vertex v's colour |
| `CubeGeometry.QuadxFitsInt8` | cube_texture_and_coords.rb:20-57 | `$quadx` has 6·4·3 = 72 entries, its allocation, all ±10, so it fits `int8` |
| `CubeGeometry.FacesArePlanar` | cube_texture_and_coords.rb:22-56 | each face's four vertices share one coordinate: front z=10, back z=-10, left x=-10, right x=10, top y=10, bottom y=-10 |
| `CubeGeometry.FaceCornersDistinct` | cube_texture_and_coords.rb:22-56 | a face's four vertices are distinct corners |
| `CubeGeometry.TexCoordsLayout` | cube_texture_and_coords.rb:60-91 | `$texCoords` has 48 entries, its allocation, all 0 or 1, and every face uses the corners (0,0), (0,1), (1,0), (1,1) |
| `CubeGeometry.FaceColoursUniform` | cube_texture_and_coords.rb:93-124 | the four vertices of a face share its colour, and every colour is opaque |
| `CubeGeometry.ColorsLayout` | cube_texture_and_coords.rb:93-124 | `$colorsf` has 96 entries, its allocation, and every vertex's alpha is 1 |
| `CubeModel.ResetPoseValid` | examples/hello_triangle_original.rb:202-211 | the reset pose satisfies the pose invariant |
| `HelloTriangleOriginal.AssertText` | examples/hello_triangle_original.rb:54-59 | the demo's error text: the framework's message when one is given; a missing message formats as empty, leaving " (…)" |
| `HelloTriangleOriginal.Assert` | examples/hello_triangle_original.rb:54-59 | raises a `RuntimeError` exactly when the condition fails, with "msg (eglGetError returned 0x…)" |
| `HelloTriangleOriginal.AssertTextAgreesWithFramework` | examples/hello_triangle_original.rb:57 | the demo's text ends in ")" and matches the framework's for a given message; without one it starts " (" |
| `HelloTriangleOriginal.AttributeListLayout` | examples/hello_triangle_original.rb:74-82 | 11 ints filling the buffer, five pairs and `EGL_NONE`, and the same list the framework defaults to |
| `HelloTriangleOriginal.IncAndWrapAngle` | examples/hello_triangle_original.rb:231-241 | a sum of 360 or more loses 360, a sum of 0 or less gains 360, and the sum is kept exactly when strictly inside (0, 360), so 0 maps to 360 and 360 to 0; angles in [0, 360] with increments under a turn stay in [0, 360] |
| `HelloTriangleOriginal.IncAndClipDistance` | examples/hello_triangle_original.rb:243-253 | always in [40, 120]; the sum is kept exactly when inside [40, 120]; saturates at either bound |
| `HelloTriangleOriginal.WrapExamples` | examples/hello_triangle_original.rb:231-253 | 359.5+0.5 gives 0, 0.5-0.5 gives 360, a pose resting on 360 or 0 jumps to the other end; distances saturate |
| `HelloTriangleOriginal.ResetModel` | examples/hello_triangle_original.rb:195-212 | the pose becomes the reset pose, which is valid; no other field changes; the calls are exactly glMatrixMode(GL_MODELVIEW), glLoadIdentity and glTranslatef(0, 0, -50), which puts the camera 50 units back |
| `HelloTriangleOriginal.UpdateModel` | examples/hello_triangle_original.rb:214-229 | only the three angles and the distance change, each by its own rule; validity is preserved; the calls are LoadIdentity, the camera translation by minus the new distance (within [-120, -40]), then rotations by the new x, y and z angles about the x, y and z axes |
| `HelloTriangleOriginal.UpdatesKeepInvariant` | examples/hello_triangle_original.rb:216-219 | any number of updates keeps a valid pose valid and touches nothing but angles and distance |
| `HelloTriangleOriginal.WrapIsModularSum` | examples/hello_triangle_original.rb:231-241 | after n steps an angle equals angle + n·inc up to whole turns |
| `HelloTriangleOriginal.UpdatesWrapEachAngle` | examples/hello_triangle_original.rb:216-218 | each angle after n updates is its own n-fold wrap |
| `HelloTriangleOriginal.RenderCounterStep` | examples/hello_triangle_original.rb:425-431 | the progress line is printed exactly when the count reaches 1000, which resets it; the counter stays below 1000 |
| `HelloTriangleOriginal.CounterTracksFrames` | examples/hello_triangle_original.rb:424-431 | from 0 the counter is the frame number mod 1000, and the line is printed exactly on multiples of 1000 |
| `HelloTriangleOriginal.MainLoop` | examples/hello_triangle_original.rb:422-432 | after n passes the counter is n mod 1000, n div 1000 lines were printed, and the state is n updates on |
| `HelloTriangleOriginal.LoadTexImages` | examples/hello_triangle_original.rb:366-378 | Lucca, Djenne, Gaudi into buffers 1, 2, 3; the first missing file in that order raises |
| `HelloTriangleOriginal.InitTextures` | examples/hello_triangle_original.rb:301-364 | fails exactly when an image is missing; otherwise six textures, texture i showing image i div 2 + 1 at 128×128 |
| `HelloTriangleOriginal.RedrawScene` | examples/hello_triangle_original.rb:255-299 | a frame's log of 25 calls ending with the buffer swap |
| `HelloTriangleOriginal.RedrawDrawsFaces` | examples/hello_triangle_original.rb:263-294 | strip f starts at vertex 4f, has 4 vertices and uses texture f, whatever was bound before |
| `HelloTriangleOriginal.StripsPartitionVertices` | examples/hello_triangle_original.rb:271-294 | six strips at 0, 4, …, 20 cover the 24 vertices in order without gap or overlap |
| `HelloTriangleOriginal.StripsDrawTheirFaces` | cube_texture_and_coords.rb:20-57 | strip f draws exactly the four vertices the position table lists for face f |
| `HelloTriangleRubified.IncAndWrapAngle` | examples/hello_triangle_rubified.rb:147-157 | angles stay in [0, 360]; 0 maps to 360 and 360 to 0 |
| `HelloTriangleRubified.IncAndClipDistance` | examples/hello_triangle_rubified.rb:159-169 | always in [40, 120], saturating at either bound |
| `HelloTriangleRubified.PoseRulesAgree` | examples/hello_triangle_rubified.rb:147-169 | both rules compute the same as the original's for every input |
| `HelloTriangleRubified.ResetModel` | examples/hello_triangle_rubified.rb:52-69 | the pose becomes the valid reset pose; textures are untouched; the calls are exactly glMatrixMode(GL_MODELVIEW), glLoadIdentity and glTranslatef(0, 0, -50) |
| `HelloTriangleRubified.ResetAgrees` | examples/hello_triangle_rubified.rb:52-69 | the same pose and calls as the original's reset |
| `HelloTriangleRubified.UpdateModel` | examples/hello_triangle_rubified.rb:130-145 | only angles and distance change, each by its rule; validity is preserved; the calls are LoadIdentity, the camera translation by minus the new distance, then rotations by the new x, y and z angles about the x, y and z axes |
| `HelloTriangleRubified.UpdateAgrees` | examples/hello_triangle_rubified.rb:130-145 | from the same pose, the same next pose and calls as the original's update |
| `HelloTriangleRubified.LoadTexImages` | examples/hello_triangle_rubified.rb:124-128 | Lucca, Djenne, Gaudi via `load_texture_from_file`, failing exactly when one is missing |
| `HelloTriangleRubified.LoadAgrees` | examples/hello_triangle_rubified.rb:124-128 | the same success, the same error and the same bytes as the original's loader |
| `HelloTriangleRubified.InitTextures` | examples/hello_triangle_rubified.rb:71-122 | texture i shows image i div 2 + 1 of Lucca, Djenne, Gaudi |
| `HelloTriangleRubified.RedrawScene` | examples/hello_triangle_rubified.rb:172-214 | 24 calls: the original's frame without the swap |
| `HelloTriangleRubified.RedrawAgrees` | examples/hello_triangle_rubified.rb:172-214 | the original's redraw is this one plus the swap, drawing the same strips with the same textures |
| `HelloTriangleRubified.Tick` | examples/hello_triangle_rubified.rb:19-25 | prints "FPS: n" exactly on `:new_second`, then always updates and redraws |
| `HelloTriangleRubified.TickPrintsFps` | examples/hello_triangle_rubified.rb:20-22 | the printed line is the framework's frame-rate report |
| `HelloTriangleRubified.FrameAgrees` | examples/hello_triangle_rubified.rb:19-25 | a framework frame (tick, then swap) issues exactly the calls of one pass of the original's loop and reaches the same pose |
| `Marquee.QuadCornersLoad` | examples/marquee.rb:51-56 | the corners (0,0), (0,h), (w,0), (w,h) load into an int buffer holding exactly them; if a side exceeds a C `int` the load raises `RangeError` |
| `Marquee.TextureCornersLoad` | examples/marquee.rb:57-62 | the texture corners load into the float buffer 0,0, 0,1, 1,0, 1,1: the same corner order as the quad, with values in {0, 1} |
| `Marquee.Setup` | examples/marquee.rb:12-74 | fails exactly on a missing test image (`ENOENT`) or a number beyond a C `int` (`RangeError`); the quad is 4× the image; both coordinate buffers as above; the offset is (height − quad height) floor-divided by 2; step 4, position 0 |
| `Marquee.SetupEstablishesValid` | examples/marquee.rb:49-73 | for the 1024×128 image, set-up succeeds with a 4096×512 quad and establishes the scroll invariant |
| `Marquee.Redraw` | examples/marquee.rb:127-145 | the position drops by the step, and by two quad widths less once below minus one quad width; nothing else changes; the invariant is preserved; unwritable translations raise `RangeError` |
| `Marquee.RedrawMovesByPos` | examples/marquee.rb:127-144 | the total x translation equals the change in position, and one four-vertex strip is drawn with the marquee texture |
| `Marquee.Redraws` | examples/marquee.rb:139-144 | the invariant holds after any number of frames |
| `Marquee.ScrollIsPeriodic` | examples/marquee.rb:138-144 | after n frames the position is pos − n·step plus at most n jumps of two quad widths |
| `Marquee.Tick` | examples/marquee.rb:147-153 | the frame-rate line exactly on `:new_second`, then a redraw |

## Left out

- Native calls (EGL, GLES, dispmanx, `bcm_host_init`): recorded as `GL.Call` values where their order or arguments matter, otherwise omitted. Matrix arithmetic, texture parameters, client-state switches, viewport and projection set-up, and `cleanup`/`exit_func` are omitted.
- The perspective computation (`Math.tan`, `glFrustumf`): floating-point trigonometry.
- File reading: modelled as a map from path to bytes. The VideoCore installation path is abstracted away, so paths are relative to it. `lib/raspigl/common.rb` and `lib/raspigl/gles.rb`, which define that path and the GLES enumerants, are not part of this model. Enumerants are symbolic.
- RMagick text rendering and the marquee texture upload: only the image size, fixed at 1024×128, enters the model.
- Clocks, `sleep`, `trap("INT")` and `at_exit`:
  - the wall-clock second is an input to each frame;
  - the terminate flag appears as the number of loop passes made before it is seen;
  - the sub-second `@_time` is kept as whole seconds.
- `Common.Truncate` and `RaspiGL.ToCFloat` do not model single-precision rounding when FFI writes a C `float`.
- `Digits.Render` covers non-negative numbers only. `eglGetError` codes are non-negative, so `%x` of a negative number is not modelled.
- `RaspiGL.CheckOpts` appends to a fresh list. In Ruby, `<<` mutates the array object; when that object is the class-level default it is shared between instances. The default already ends with `EGL_NONE`, so it is never mutated. The aliasing itself is not modelled.
- `RaspiGL.AssertEgl` takes the `eglGetError` code as a parameter. Reading the code also clears EGL's error state even when the condition holds; that side effect is not modelled.
- Marquee.Tick, Marquee.Redraw: on the error path the model returns only the `RangeError` and drops the effects Ruby has already performed before the raising call. `tick` has already printed the "FPS: n" line. If `glTranslatex(-@step)` raises, the clear, texture-environment, bind and draw calls have been issued. If `glTranslatex(@quad_width * 2)` raises, `glTranslatex(-@step)` has been issued as well, and `@pos` has already been moved by `-@step + 2 * @quad_width`. Neither path can be reached from a marquee satisfying `Marquee.Valid`, which `Marquee.Setup` for the demo's image establishes.
- `Marquee.Setup` takes the surface height as an integer. This is the only case that reaches it: a Float `:height` makes `init_opengl` raise `NoMethodError` at `self.height << 16` (lib/raspigl.rb:200) before `setup` runs. So `(height - @quad_height) / 2` is always Integer floor division.
- ShiftLeft16: returns a new array for an Array operand. Ruby's `Array#<<` appends to the option's array in place, and that aliasing is not modelled. The case cannot arise in `init_opengl`, where `dst_rect[:width] = self.width` (lib/raspigl.rb:194) already raises `TypeError` for an Array (`RaspiGL.InitRects` keeps that order).
- LoadTextureFromString: the input is taken as a binary (ASCII-8BIT) string of bytes, so its size is its byte count. For a multibyte non-binary string, `MemoryPointer.new(:char, data.size)` counts characters and `put_bytes` would raise `IndexError`; that path is not modelled. Every caller passes binary data: a `"rb"` read or an image blob.
- InitTextures, RedrawScene, Marquee.Redraw: texture names are modelled as the integers `glGenTextures` stores, bound as the C hello_triangle binds them. In Ruby, `state.tex`, `@tex` and `@textures` are `FFI::MemoryPointer`s, and `[i]` on one returns a Pointer at byte offset 4·i rather than the stored name. What `glBindTexture` then receives depends on the GLES binding's declaration in `lib/raspigl/gles.rb`, which is not part of this model.
- HelloTriangleRubified.IncAndWrapAngle: its own contract states only the range and the two end points. The full characterisation comes from `HelloTriangleRubified.PoseRulesAgree`, which equates it with the original's rule.
- HelloTriangleRubified.IncAndClipDistance: its own contract states only the range and saturation. `HelloTriangleRubified.PoseRulesAgree` equates it with the original's rule.
- hello_triangle.rb: native initialisation plus a loop counter identical to the original demo's, which `HelloTriangleOriginal.MainLoop` covers.

=== FILE: common.dfy ===
/** Shared vocabulary of the model: failure-carrying results, bytes and the
    32-bit integer range that Ruby FFI enforces when it writes a C `int`. */
module Common {

  /** Ruby's `nil`-or-value. */
  datatype Option<+T> = None | Some(value: T)

  /** A value or the exception that Ruby would raise instead. */
  datatype Result<+T, +E> = Ok(value: T) | Err(error: E)

  /** A C `char` as FFI writes it. */
  newtype byte = b: int | 0 <= b < 256

  const INT32_MIN: int := -0x8000_0000
  const INT32_MAX: int := 0x7FFF_FFFF

  /** FFI's `NUM2INT` accepts exactly the integers of a C `int`. */
  predicate InInt32(n: int) {
    INT32_MIN <= n <= INT32_MAX
  }

  /** C-style truncation of a real toward zero (Dafny's `.Floor` rounds down). */
  function Truncate(x: real): (n: int)
    ensures 0.0 <= x ==> n as real <= x < n as real + 1.0
    ensures x < 0.0 ==> n as real - 1.0 < x <= n as real
  {
    if x >= 0.0 then x.Floor else -((-x).Floor)
  }
}

=== FILE: cube_geometry.dfy ===
/** The constant tables of cube_texture_and_coords.rb: 24 vertices (four
    per face, in triangle-strip order) with their positions, texture
    coordinates and colours. Each table is written face by face, as the
    Ruby source groups it, and flattened into the array FFI receives. */
module CubeGeometry {

  const FACES: nat := 6
  const VERTICES_PER_FACE: nat := 4
  const VERTEX_COUNT: nat := FACES * VERTICES_PER_FACE

  datatype Vertex = Vertex(x: int, y: int, z: int)

  datatype TexCoord = TexCoord(s: real, t: real)

  datatype Colour = Colour(r: real, g: real, b: real, a: real)

  /** Positions, per face: front, back, left, right, top, bottom. */
  const POSITIONS: seq<seq<Vertex>> := [
    [Vertex(-10, -10,  10), Vertex( 10, -10,  10), Vertex(-10,  10,  10), Vertex( 10,  10,  10)],
    [Vertex(-10, -10, -10), Vertex(-10,  10, -10), Vertex( 10, -10, -10), Vertex( 10,  10, -10)],
    [Vertex(-10, -10,  10), Vertex(-10,  10,  10), Vertex(-10, -10, -10), Vertex(-10,  10, -10)],
    [Vertex( 10, -10, -10), Vertex( 10,  10, -10), Vertex( 10, -10,  10), Vertex( 10,  10,  10)],
    [Vertex(-10,  10,  10), Vertex( 10,  10,  10), Vertex(-10,  10, -10), Vertex( 10,  10, -10)],
    [Vertex(-10, -10,  10), Vertex(-10, -10, -10), Vertex( 10, -10,  10), Vertex( 10, -10, -10)]
  ]

  /** Texture coordinates, per face. */
  const TEXTURE: seq<seq<TexCoord>> := [
    [TexCoord(0.0, 0.0), TexCoord(0.0, 1.0), TexCoord(1.0, 0.0), TexCoord(1.0, 1.0)],
    [TexCoord(0.0, 0.0), TexCoord(0.0, 1.0), TexCoord(1.0, 0.0), TexCoord(1.0, 1.0)],
    [TexCoord(0.0, 0.0), TexCoord(0.0, 1.0), TexCoord(1.0, 0.0), TexCoord(1.0, 1.0)],
    [TexCoord(0.0, 0.0), TexCoord(0.0, 1.0), TexCoord(1.0, 0.0), TexCoord(1.0, 1.0)],
    [TexCoord(0.0, 0.0), TexCoord(0.0, 1.0), TexCoord(1.0, 0.0), TexCoord(1.0, 1.0)],
    [TexCoord(0.0, 0.0), TexCoord(0.0, 1.0), TexCoord(1.0, 0.0), TexCoord(1.0, 1.0)]
  ]

  /** Colours, per face: red, green, blue, teal, yellow, purple. */
  const COLOURS: seq<seq<Colour>> := [
    [Colour(1.0, 0.0, 0.0, 1.0), Colour(1.0, 0.0, 0.0, 1.0), Colour(1.0, 0.0, 0.0, 1.0), Colour(1.0, 0.0, 0.0, 1.0)],
    [Colour(0.0, 1.0, 0.0, 1.0), Colour(0.0, 1.0, 0.0, 1.0), Colour(0.0, 1.0, 0.0, 1.0), Colour(0.0, 1.0, 0.0, 1.0)],
    [Colour(0.0, 0.0, 1.0, 1.0), Colour(0.0, 0.0, 1.0, 1.0), Colour(0.0, 0.0, 1.0, 1.0), Colour(0.0, 0.0, 1.0, 1.0)],
    [Colour(0.0, 0.5, 0.5, 1.0), Colour(0.0, 0.5, 0.5, 1.0), Colour(0.0, 0.5, 0.5, 1.0), Colour(0.0, 0.5, 0.5, 1.0)],
    [Colour(0.5, 0.5, 0.0, 1.0), Colour(0.5, 0.5, 0.0, 1.0), Colour(0.5, 0.5, 0.0, 1.0), Colour(0.5, 0.5, 0.0, 1.0)],
    [Colour(0.5, 0.0, 0.5, 1.0), Colour(0.5, 0.0, 0.5, 1.0), Colour(0.5, 0.0, 0.5, 1.0), Colour(0.5, 0.0, 0.5, 1.0)]
  ]

  /** Every face lists four vertices. */
  lemma TablesAreRectangular()
    ensures |POSITIONS| == |TEXTURE| == |COLOURS| == FACES
    ensures forall f :: 0 <= f < FACES ==> |POSITIONS[f]| == VERTICES_PER_FACE
    ensures forall f :: 0 <= f < FACES ==> |TEXTURE[f]| == VERTICES_PER_FACE
    ensures forall f :: 0 <= f < FACES ==> |COLOURS[f]| == VERTICES_PER_FACE
  {
  }

  /** The 24 vertices in drawing order: vertex `4f + k` is the `k`-th
      vertex of face `f`. */
  function Vertices(): (vs: seq<Vertex>)
    ensures |vs| == VERTEX_COUNT
  {
    TablesAreRectangular();
    seq(VERTEX_COUNT, v requires 0 <= v < VERTEX_COUNT => POSITIONS[v / VERTICES_PER_FACE][v % VERTICES_PER_FACE])
  }

  /** `$quadx` as written to its `int8` buffer: x, y, z of each vertex. */
  function Quadx(): (q: seq<int>)
    ensures |q| == 3 * VERTEX_COUNT
    ensures forall v, axis :: 0 <= v < VERTEX_COUNT && 0 <= axis < 3 ==> q[3 * v + axis] == Coord(Vertices()[v], axis)
  {
    FlattenVertices(Vertices())
  }

  /** Vertices laid out one after another, three coordinates each. */
  function FlattenVertices(vs: seq<Vertex>): (q: seq<int>)
    ensures |q| == 3 * |vs|
    ensures forall v, axis :: 0 <= v < |vs| && 0 <= axis < 3 ==> q[3 * v + axis] == Coord(vs[v], axis)
  {
    var q := seq(3 * |vs|, i requires 0 <= i < 3 * |vs| => Coord(vs[i / 3], i % 3));
    forall v, axis | 0 <= v < |vs| && 0 <= axis < 3
      ensures q[3 * v + axis] == Coord(vs[v], axis)
    {
      FlatIndex(v, axis, 3);
    }
    q
  }

  /** Entry `k` of element `e` in a flat array of `width`-wide elements. */
  lemma FlatIndex(e: nat, k: nat, width: nat)
    requires 2 <= width <= 4 && k < width
    ensures (width * e + k) / width == e && (width * e + k) % width == k
  {
    if width == 2 {
      assert (2 * e + k) / 2 == e;
    } else if width == 3 {
      assert (3 * e + k) / 3 == e;
    } else {
      assert (4 * e + k) / 4 == e;
    }
  }

  /** The texture coordinate of each of the 24 vertices. */
  function VertexTexCoords(): (cs: seq<TexCoord>)
    ensures |cs| == VERTEX_COUNT
  {
    TablesAreRectangular();
    seq(VERTEX_COUNT, v requires 0 <= v < VERTEX_COUNT => TEXTURE[v / VERTICES_PER_FACE][v % VERTICES_PER_FACE])
  }

  /** The colour of each of the 24 vertices. */
  function VertexColours(): (cs: seq<Colour>)
    ensures |cs| == VERTEX_COUNT
  {
    TablesAreRectangular();
    seq(VERTEX_COUNT, v requires 0 <= v < VERTEX_COUNT => COLOURS[v / VERTICES_PER_FACE][v % VERTICES_PER_FACE])
  }

  /** `$texCoords` as written to its float buffer: s, t of each vertex. */
  function TexCoords(): (ts: seq<real>)
    ensures |ts| == 2 * VERTEX_COUNT
    ensures forall v, k :: 0 <= v < VERTEX_COUNT && 0 <= k < 2 ==> ts[2 * v + k] == Component(VertexTexCoords()[v], k)
  {
    FlattenTexCoords(VertexTexCoords())
  }

  /** Texture coordinates laid out one after another, s then t. */
  function FlattenTexCoords(cs: seq<TexCoord>): (ts: seq<real>)
    ensures |ts| == 2 * |cs|
    ensures forall v, k :: 0 <= v < |cs| && 0 <= k < 2 ==> ts[2 * v + k] == Component(cs[v], k)
  {
    var ts := seq(2 * |cs|, i requires 0 <= i < 2 * |cs| => Component(cs[i / 2], i % 2));
    forall v, k | 0 <= v < |cs| && 0 <= k < 2
      ensures ts[2 * v + k] == Component(cs[v], k)
    {
      FlatIndex(v, k, 2);
    }
    ts
  }

  /** Component `k` (0 = s, 1 = t) of a texture coordinate. */
  function Component(c: TexCoord, k: nat): real
  {
    if k == 0 then c.s else c.t
  }

  /** `$colorsf` as written to its float buffer: r, g, b, a of each vertex. */
  function ColorsF(): (cs: seq<real>)
    ensures |cs| == 4 * VERTEX_COUNT
    ensures forall v, c :: 0 <= v < VERTEX_COUNT && 0 <= c < 4 ==> cs[4 * v + c] == Channel(VertexColours()[v], c)
  {
    FlattenColours(VertexColours())
  }

  /** Colours laid out one after another, r, g, b, a. */
  function FlattenColours(colours: seq<Colour>): (cs: seq<real>)
    ensures |cs| == 4 * |colours|
    ensures forall v, c :: 0 <= v < |colours| && 0 <= c < 4 ==> cs[4 * v + c] == Channel(colours[v], c)
  {
    var cs := seq(4 * |colours|, i requires 0 <= i < 4 * |colours| => Channel(colours[i / 4], i % 4));
    forall v, c | 0 <= v < |colours| && 0 <= c < 4
      ensures cs[4 * v + c] == Channel(colours[v], c)
    {
      FlatIndex(v, c, 4);
    }
    cs
  }

  /** Channel `c` (0 = r, 1 = g, 2 = b, 3 = a) of a colour. */
  function Channel(colour: Colour, c: nat): real
  {
    if c == 0 then colour.r else if c == 1 then colour.g else if c == 2 then colour.b else colour.a
  }

  /** Coordinate `axis` (0 = x, 1 = y, 2 = z) of a vertex. */
  function Coord(v: Vertex, axis: nat): int
  {
    if axis == 0 then v.x else if axis == 1 then v.y else v.z
  }

  /** The axis on which each face is flat. */
  function FaceAxis(face: nat): nat
    requires face < FACES
  {
    [2, 2, 0, 0, 1, 1][face]
  }

  /** The level of that axis shared by the face's vertices. */
  function FaceLevel(face: nat): int
    requires face < FACES
  {
    [10, -10, -10, 10, 10, -10][face]
  }

  predicate FitsInt8(n: int) {
    -128 <= n <= 127
  }

  /** `$quadx` fills exactly its `6 * 4 * 3` allocation and every entry is
      a cube half-width of 10, so it fits the `int8` elements it is written
      as. */
  lemma QuadxFitsInt8()
    ensures |Quadx()| == FACES * VERTICES_PER_FACE * 3
    ensures forall i :: 0 <= i < |Quadx()| ==> Quadx()[i] == 10 || Quadx()[i] == -10
    ensures forall i :: 0 <= i < |Quadx()| ==> FitsInt8(Quadx()[i])
  {
    assert forall f, k :: 0 <= f < FACES && 0 <= k < VERTICES_PER_FACE ==>
      && (POSITIONS[f][k].x == 10 || POSITIONS[f][k].x == -10)
      && (POSITIONS[f][k].y == 10 || POSITIONS[f][k].y == -10)
      && (POSITIONS[f][k].z == 10 || POSITIONS[f][k].z == -10);
  }

  /** Each face's four vertices lie in one plane: front z = 10, back z = -10,
      left x = -10, right x = 10, top y = 10, bottom y = -10. */
  lemma FacesArePlanar()
    ensures forall v :: 0 <= v < VERTEX_COUNT ==>
      Coord(Vertices()[v], FaceAxis(v / VERTICES_PER_FACE)) == FaceLevel(v / VERTICES_PER_FACE)
  {
    assert forall f, k :: 0 <= f < FACES && 0 <= k < VERTICES_PER_FACE ==>
      Coord(POSITIONS[f][k], FaceAxis(f)) == FaceLevel(f);
  }

  /** The four vertices of a face are four distinct corners of the cube. */
  lemma FaceCornersDistinct()
    ensures forall f, k, l :: 0 <= f < FACES && 0 <= k < l < VERTICES_PER_FACE ==>
      POSITIONS[f][k] != POSITIONS[f][l]
  {
  }

  /** `$texCoords` fills exactly its `6 * 4 * 2` allocation with values
      in {0, 1}, and every face maps its vertices to the same corners
      (0,0), (0,1), (1,0), (1,1). */
  lemma TexCoordsLayout()
    ensures |TexCoords()| == FACES * VERTICES_PER_FACE * 2
    ensures forall i :: 0 <= i < |TexCoords()| ==> TexCoords()[i] == 0.0 || TexCoords()[i] == 1.0
    ensures forall v :: 0 <= v < VERTEX_COUNT ==> VertexTexCoords()[v] == TEXTURE[0][v % VERTICES_PER_FACE]
    ensures TEXTURE[0] == [TexCoord(0.0, 0.0), TexCoord(0.0, 1.0), TexCoord(1.0, 0.0), TexCoord(1.0, 1.0)]
  {
    assert forall f, k :: 0 <= f < FACES && 0 <= k < VERTICES_PER_FACE ==> TEXTURE[f][k] == TEXTURE[0][k];
    assert forall k :: 0 <= k < VERTICES_PER_FACE ==>
      (TEXTURE[0][k].s == 0.0 || TEXTURE[0][k].s == 1.0) && (TEXTURE[0][k].t == 0.0 || TEXTURE[0][k].t == 1.0);
  }

  /** The four vertices of a face share the face's colour, and every
      colour is opaque. */
  lemma FaceColoursUniform()
    ensures forall v :: 0 <= v < VERTEX_COUNT ==> VertexColours()[v] == COLOURS[v / VERTICES_PER_FACE][0]
    ensures forall v :: 0 <= v < VERTEX_COUNT ==> VertexColours()[v].a == 1.0
  {
    assert forall f, k :: 0 <= f < FACES && 0 <= k < VERTICES_PER_FACE ==> COLOURS[f][k] == COLOURS[f][0];
    assert forall f :: 0 <= f < FACES ==> COLOURS[f][0].a == 1.0;
  }

  /** `$colorsf` fills exactly its `6 * 4 * 4` allocation, and the alpha
      channel of every vertex is 1. */
  lemma ColorsLayout()
    ensures |ColorsF()| == FACES * VERTICES_PER_FACE * 4
    ensures forall v :: 0 <= v < VERTEX_COUNT ==> ColorsF()[4 * v + 3] == 1.0
  {
    forall v | 0 <= v < VERTEX_COUNT ensures ColorsF()[4 * v + 3] == 1.0 {
      AlphaIsOne(v);
    }
  }

  lemma AlphaIsOne(v: nat)
    requires v < VERTEX_COUNT
    ensures |ColorsF()| == 4 * VERTEX_COUNT
    ensures ColorsF()[4 * v + 3] == 1.0
  {
    var colour := VertexColours()[v];
    assert colour.a == 1.0 by {
      FaceColoursUniform();
    }
    AlphaPosition(v);
    ColorsFEntry(4 * v + 3);
    assert ColorsF()[4 * v + 3] == Channel(colour, 3);
  }

  lemma AlphaPosition(v: nat)
    ensures (4 * v + 3) / 4 == v && (4 * v + 3) % 4 == 3
  {
  }

  lemma ColorsFEntry(i: nat)
    requires i < 4 * VERTEX_COUNT
    ensures |ColorsF()| == 4 * VERTEX_COUNT
    ensures ColorsF()[i] == Channel(VertexColours()[i / 4], i % 4)
  {
  }
}

=== FILE: cube_model.dfy ===
/** What the two cube demos (examples/hello_triangle_original.rb and
    examples/hello_triangle_rubified.rb) share: the animated pose of the
    cube, the state they reset it to, and the three texture images. */
module CubeModel {

  import opened Common

  /** The rotation angles and camera distance with their per-frame
      increments, in degrees and GL units. */
  datatype Pose = Pose(
    rotAngleX: real, rotAngleY: real, rotAngleZ: real,
    rotAngleXInc: real, rotAngleYInc: real, rotAngleZInc: real,
    distance: real, distanceInc: real)

  const MIN_DISTANCE: real := 40.0
  const MAX_DISTANCE: real := 120.0
  const FULL_TURN: real := 360.0

  predicate AngleInRange(a: real) {
    0.0 <= a <= FULL_TURN
  }

  predicate IncrementInRange(inc: real) {
    -FULL_TURN < inc < FULL_TURN
  }

  /** The pose invariant: angles in [0, 360] (360 included, see the
      wrap-around rule), increments under a full turn, and the camera
      between the near and far distance limits. */
  predicate Valid(p: Pose) {
    && AngleInRange(p.rotAngleX) && AngleInRange(p.rotAngleY) && AngleInRange(p.rotAngleZ)
    && IncrementInRange(p.rotAngleXInc) && IncrementInRange(p.rotAngleYInc) && IncrementInRange(p.rotAngleZInc)
    && MIN_DISTANCE <= p.distance <= MAX_DISTANCE
  }

  /** The pose `reset_model` establishes in both demos. */
  const RESET_POSE: Pose := Pose(45.0, 30.0, 0.0, 0.5, 0.5, 0.0, 40.0, 0.0)

  lemma ResetPoseValid()
    ensures Valid(RESET_POSE)
  {
  }

  /** Side of the square RGB texture images, in pixels. */
  const IMAGE_SIZE: nat := 128

  /** The texture images, relative to the VideoCore installation path, in
      the order they are loaded: Lucca, Djenne, Gaudi. */
  const TEXTURE_IMAGE_FILES: seq<string> := [
    "src/hello_pi/hello_triangle/Lucca_128_128.raw",
    "src/hello_pi/hello_triangle/Djenne_128_128.raw",
    "src/hello_pi/hello_triangle/Gaudi_128_128.raw"
  ]

  /** One `glTexImage2D` upload: the texture slot it fills and the image
      bytes it reads. */
  datatype Upload = Upload(slot: nat, pixels: seq<byte>, width: nat, height: nat)

  /** Six textures from three images: slot `i` shows image `i / 2`
      (0-based), so each image is used on two faces. */
  predicate UploadsPairImages(uploads: seq<Upload>, images: seq<seq<byte>>)
    requires |images| == 3
  {
    && |uploads| == 6
    && forall i :: 0 <= i < 6 ==> uploads[i] == Upload(i, images[i / 2], IMAGE_SIZE, IMAGE_SIZE)
  }
}

=== FILE: digits.dfy ===
/** Rendering of non-negative integers as Ruby does for `Integer#to_s`
    (base 10, used by `"FPS: #{fps}"`) and for the `%x` format directive
    (base 16, lower-case, used by the EGL error message), together with the
    parser that inverts the rendering. */
module Digits {

  import opened Common

  predicate ValidBase(base: nat) {
    2 <= base <= 16
  }

  /** The lower-case digit character for `d`, as `%x` writes it. */
  function DigitChar(d: nat): char
    requires d < 16
  {
    if d < 10 then ('0' as int + d) as char else ('a' as int + d - 10) as char
  }

  /** The value of one digit character, if it is a digit of `base`. */
  function DigitValue(c: char, base: nat): (r: Option<nat>)
    requires ValidBase(base)
    ensures r.Some? ==> r.value < base && DigitChar(r.value) == c
  {
    if '0' <= c <= '9' && (c as int - '0' as int) < base then Some(c as int - '0' as int)
    else if 'a' <= c <= 'f' && (c as int - 'a' as int + 10) < base then Some(c as int - 'a' as int + 10)
    else None
  }

  predicate IsDigit(c: char, base: nat)
    requires ValidBase(base)
  {
    DigitValue(c, base).Some?
  }

  lemma DigitCharIsDigit(d: nat, base: nat)
    requires ValidBase(base) && d < base
    ensures DigitValue(DigitChar(d), base) == Some(d)
  {
  }

  lemma DivisionShrinks(n: nat, base: nat)
    requires ValidBase(base) && base <= n
    ensures 0 < n / base < n
  {
  }

  /** The shortest digit string of `n` in `base`: "0" for zero, otherwise
      no leading zero. */
  function Render(n: nat, base: nat): (s: string)
    requires ValidBase(base)
    ensures 1 <= |s|
    ensures forall i :: 0 <= i < |s| ==> IsDigit(s[i], base)
    ensures n == 0 <==> s == "0"
    ensures 0 < n ==> s[0] != '0'
    decreases n
  {
    var last := n % base;
    DigitCharIsDigit(last, base);
    if n < base then [DigitChar(n)]
    else
      DivisionShrinks(n, base);
      var prefix := Render(n / base, base);
      assert forall i :: 0 <= i < |prefix| ==> IsDigit((prefix + [DigitChar(last)])[i], base);
      prefix + [DigitChar(last)]
  }

  /** The value of a digit string, most significant digit first. */
  function Parse(s: string, base: nat): nat
    requires ValidBase(base)
    requires forall i :: 0 <= i < |s| ==> IsDigit(s[i], base)
    decreases |s|
  {
    if |s| == 0 then 0
    else
      var prefix := s[..|s| - 1];
      assert forall i :: 0 <= i < |prefix| ==> prefix[i] == s[i];
      var high: nat := Parse(prefix, base);
      assert IsDigit(s[|s| - 1], base);
      var low: nat := DigitValue(s[|s| - 1], base).value;
      NaturalProduct(high, base);
      high * base + low
  }

  lemma NaturalProduct(a: nat, b: nat)
    ensures 0 <= a * b
  {
  }

  /** Rendering loses nothing: parsing the digits gives the number back. */
  lemma {:induction false} ParseRender(n: nat, base: nat)
    requires ValidBase(base)
    ensures Parse(Render(n, base), base) == n
    decreases n
  {
    if n >= base {
      DivisionShrinks(n, base);
      var q, r := n / base, n % base;
      ParseRender(q, base);
      DigitCharIsDigit(r, base);
      ParseSnoc(Render(q, base), r, base);
      DivMod(n, base);
    } else {
      DigitCharIsDigit(n, base);
    }
  }

  lemma ParseSnoc(prefix: string, d: nat, base: nat)
    requires ValidBase(base) && d < base
    requires forall i :: 0 <= i < |prefix| ==> IsDigit(prefix[i], base)
    ensures DigitValue(DigitChar(d), base) == Some(d)
    ensures forall i :: 0 <= i < |prefix + [DigitChar(d)]| ==> IsDigit((prefix + [DigitChar(d)])[i], base)
    ensures Parse(prefix + [DigitChar(d)], base) == Parse(prefix, base) * base + d
  {
    DigitCharIsDigit(d, base);
    var s := prefix + [DigitChar(d)];
    assert s[..|s| - 1] == prefix;
  }

  lemma DivMod(n: nat, base: nat)
    requires ValidBase(base)
    ensures (n / base) * base + n % base == n
  {
  }

  /** Distinct numbers render differently. */
  lemma RenderInjective(m: nat, n: nat, base: nat)
    requires ValidBase(base)
    requires Render(m, base) == Render(n, base)
    ensures m == n
  {
    ParseRender(m, base);
    ParseRender(n, base);
  }

  /** `Integer#to_s` for a non-negative integer. */
  function Decimal(n: nat): string
  {
    Render(n, 10)
  }

  /** `"%x" % n` for a non-negative integer. */
  function Hex(n: nat): string
  {
    Render(n, 16)
  }
}

=== FILE: egl.dfy ===
/** The few EGL 1.4 enumerants the framework and the demos put in an EGL
    frame-buffer configuration attribute list. */
module Egl {

  const EGL_FALSE: int := 0
  const EGL_TRUE: int := 1

  const EGL_ALPHA_SIZE: int := 0x3021
  const EGL_BLUE_SIZE: int := 0x3022
  const EGL_GREEN_SIZE: int := 0x3023
  const EGL_RED_SIZE: int := 0x3024
  const EGL_SURFACE_TYPE: int := 0x3033
  /** Terminator of every EGL attribute list. */
  const EGL_NONE: int := 0x3038

  const EGL_WINDOW_BIT: int := 0x0004

  /** An attribute list is well formed when it is a sequence of key/value
      pairs followed by exactly one `EGL_NONE`, and no key is `EGL_NONE`. */
  predicate WellFormedAttributes(attrs: seq<int>) {
    && |attrs| % 2 == 1
    && attrs[|attrs| - 1] == EGL_NONE
    && forall k :: 0 <= k < |attrs| / 2 ==> attrs[2 * k] != EGL_NONE
  }

  /** Eight bits per RGBA channel on a window surface: the list both the
      framework's defaults and the original cube demo ask for. */
  const RGBA8888_WINDOW_ATTRIBUTES: seq<int> := [
    EGL_RED_SIZE, 8,
    EGL_GREEN_SIZE, 8,
    EGL_BLUE_SIZE, 8,
    EGL_ALPHA_SIZE, 8,
    EGL_SURFACE_TYPE, EGL_WINDOW_BIT,
    EGL_NONE
  ]

  /** The list has 11 ints, five key/value pairs and the terminator, which
      is the size of the buffer the original cube demo allocates for it. */
  lemma Rgba8888Layout()
    ensures |RGBA8888_WINDOW_ATTRIBUTES| == 11 == 2 * 5 + 1
    ensures WellFormedAttributes(RGBA8888_WINDOW_ATTRIBUTES)
    ensures forall k :: 0 <= k < 4 ==> RGBA8888_WINDOW_ATTRIBUTES[2 * k + 1] == 8
  {
  }
}

=== FILE: gl.dfy ===
/** The OpenGL|ES and EGL calls the modelled operations issue, recorded in
    order instead of executed. Enumerant values live in the native headers,
    so modes and targets are symbolic here. */
module GL {

  datatype MatrixMode = Projection | ModelView

  datatype TexEnvMode = Replace | Modulate

  datatype Call =
    | MatrixModeCall(mode: MatrixMode)
    | LoadIdentity
    /** `glTranslatef(x, y, z)`: a floating-point translation. */
    | Translatef(x: real, y: real, z: real)
    /** `glRotatef(angle, x, y, z)`: rotation by `angle` degrees about an axis. */
    | Rotatef(angle: real, x: real, y: real, z: real)
    /** `glTranslatex(x, y, z)`: a translation in GL fixed-point units. */
    | Translatex(fx: int, fy: int, fz: int)
    | ClearColorBuffer
    | EnableTexture2D
    | DisableTexture2D
    | TexEnv(envMode: TexEnvMode)
    /** `glBindTexture(GL_TEXTURE_2D, name)`. */
    | BindTexture(name: int)
    /** `glDrawArrays(GL_TRIANGLE_STRIP, first, count)`. */
    | DrawStrip(first: int, count: int)
    | SwapBuffers

  /** Sum of the x components of every `glTranslatex` in a call log. */
  function TotalTranslateX(calls: seq<Call>): int
  {
    if |calls| == 0 then 0
    else (if calls[0].Translatex? then calls[0].fx else 0) + TotalTranslateX(calls[1..])
  }

  lemma {:induction false} TotalTranslateXAppend(a: seq<Call>, b: seq<Call>)
    ensures TotalTranslateX(a + b) == TotalTranslateX(a) + TotalTranslateX(b)
    decreases |a|
  {
    if |a| == 0 {
      assert a + b == b;
    } else {
      assert (a + b)[0] == a[0];
      assert (a + b)[1..] == a[1..] + b;
      TotalTranslateXAppend(a[1..], b);
    }
  }

  /** A log without fixed-point translations moves nothing along x. */
  lemma {:induction false} NoTranslations(calls: seq<Call>)
    requires forall i :: 0 <= i < |calls| ==> !calls[i].Translatex?
    ensures TotalTranslateX(calls) == 0
    decreases |calls|
  {
    if |calls| > 0 {
      NoTranslations(calls[1..]);
    }
  }

  /** Each strip drawn, paired with the texture bound when it was drawn
      (`bound` is the binding in force before the log starts). */
  function DrawsWithTexture(calls: seq<Call>, bound: int): seq<(int, int, int)>
  {
    if |calls| == 0 then []
    else match calls[0]
      case BindTexture(name) => DrawsWithTexture(calls[1..], name)
      case DrawStrip(first, count) => [(first, count, bound)] + DrawsWithTexture(calls[1..], bound)
      case _ => DrawsWithTexture(calls[1..], bound)
  }

  /** The texture binding in force after a log, given the one before it. */
  function BoundAfter(calls: seq<Call>, bound: int): int
    decreases |calls|
  {
    if |calls| == 0 then bound
    else BoundAfter(calls[1..], if calls[0].BindTexture? then calls[0].name else bound)
  }

  lemma {:induction false} DrawsWithTextureAppend(a: seq<Call>, b: seq<Call>, bound: int)
    ensures DrawsWithTexture(a + b, bound) == DrawsWithTexture(a, bound) + DrawsWithTexture(b, BoundAfter(a, bound))
    decreases |a|
  {
    if |a| == 0 {
      assert a + b == b;
    } else {
      assert (a + b)[0] == a[0];
      assert (a + b)[1..] == a[1..] + b;
      var next := if a[0].BindTexture? then a[0].name else bound;
      DrawsWithTextureAppend(a[1..], b, next);
    }
  }

  lemma {:induction false} BoundAfterAppend(a: seq<Call>, b: seq<Call>, bound: int)
    ensures BoundAfter(a + b, bound) == BoundAfter(b, BoundAfter(a, bound))
    decreases |a|
  {
    if |a| == 0 {
      assert a + b == b;
    } else {
      assert (a + b)[0] == a[0];
      assert (a + b)[1..] == a[1..] + b;
      var next := if a[0].BindTexture? then a[0].name else bound;
      BoundAfterAppend(a[1..], b, next);
    }
  }

  /** One face of a textured cube: bind its texture, rotate the model so
      the image sits the right way up, draw its four vertices as a strip. */
  function DrawFace(name: int, rotation: Call, first: int): seq<Call>
    requires rotation.Rotatef?
  {
    [BindTexture(name), rotation, DrawStrip(first, 4)]
  }

  lemma DrawFaceDraws(name: int, rotation: Call, first: int, bound: int)
    requires rotation.Rotatef?
    ensures DrawsWithTexture(DrawFace(name, rotation, first), bound) == [(first, 4, name)]
    ensures BoundAfter(DrawFace(name, rotation, first), bound) == name
  {
    var calls := DrawFace(name, rotation, first);
    assert calls[1..][1..][1..] == [];
    assert DrawsWithTexture(calls[1..][1..], name) == [(first, 4, name)];
    assert BoundAfter(calls[1..][1..], name) == name;
  }

  /** A log without binds or draws draws nothing and keeps the binding. */
  lemma {:induction false} NoDraws(calls: seq<Call>, bound: int)
    requires forall i :: 0 <= i < |calls| ==> !calls[i].BindTexture? && !calls[i].DrawStrip?
    ensures DrawsWithTexture(calls, bound) == []
    ensures BoundAfter(calls, bound) == bound
    decreases |calls|
  {
    if |calls| > 0 {
      NoDraws(calls[1..], bound);
    }
  }
}

=== FILE: hello_triangle_original.dfy ===
/** The stand-alone rotating cube demo (examples/hello_triangle_original.rb):
    a `CubeState` record, the pose update rules, the render loop's
    progress counter, the mapping of three images onto six textures and
    the per-frame call log. Native EGL, GLES and dispmanx calls are
    recorded, not executed. */
module HelloTriangleOriginal {

  import opened Common
  import Digits
  import Egl
  import GL
  import RaspiGL
  import CubeModel
  import CubeGeometry

  /** The seventeen members of the `CubeState` struct. Native handles are
      opaque integers; texture buffers hold the image bytes. */
  datatype CubeState = CubeState(
    screenWidth: int, screenHeight: int,
    display: int, surface: int, context: int,
    tex: seq<int>,
    rotAngleXInc: real, rotAngleYInc: real, rotAngleZInc: real,
    rotAngleX: real, rotAngleY: real, rotAngleZ: real,
    distance: real, distanceInc: real,
    texBuf1: seq<byte>, texBuf2: seq<byte>, texBuf3: seq<byte>)

  function PoseOf(s: CubeState): CubeModel.Pose {
    CubeModel.Pose(s.rotAngleX, s.rotAngleY, s.rotAngleZ,
                   s.rotAngleXInc, s.rotAngleYInc, s.rotAngleZInc,
                   s.distance, s.distanceInc)
  }

  /** Two states agree on everything except the four animated values
      (three angles and the distance). */
  predicate OnlyPoseMoved(a: CubeState, b: CubeState) {
    b == a.(rotAngleX := b.rotAngleX, rotAngleY := b.rotAngleY, rotAngleZ := b.rotAngleZ, distance := b.distance)
  }

  // ---------------------------------------------------------------------
  // The demo's own `assert`

  /** The text of the `RuntimeError` the demo raises: `"%s"` formats a
      missing message as the empty string. */
  function AssertText(message: Option<string>, code: nat): (t: string)
    ensures message.Some? ==> t == RaspiGL.AssertEglMessage(message, code)
    ensures message.None? ==> t == " (" + RaspiGL.AssertEglMessage(message, code) + ")"
  {
    var shown := if message.Some? then message.value else "";
    shown + " (" + RaspiGL.EglErrorText(code) + ")"
  }

  /** `assert(condition, message)`: raises a `RuntimeError` (not the
      framework's error class) exactly when the condition fails. */
  function Assert(condition: bool, message: Option<string>, code: nat): (r: RaspiGL.Outcome)
    ensures r.Fail? <==> !condition
    ensures r.Fail? && message.Some? ==> r.error == RaspiGL.RuntimeError(RaspiGL.AssertEglMessage(message, code))
    ensures r.Fail? && message.None? ==> r.error == RaspiGL.RuntimeError(" (" + RaspiGL.EglErrorText(code) + ")")
  {
    if condition then RaspiGL.Pass else RaspiGL.Fail(RaspiGL.RuntimeError(AssertText(message, code)))
  }

  /** The demo's error text carries the same recoverable error code as the
      framework's, but an absent message leaves a leading space. */
  lemma AssertTextAgreesWithFramework(message: Option<string>, code: nat)
    ensures var t := AssertText(message, code);
      && t[|t| - 1] == ')'
      && (message.None? ==> t[0] == ' ' && t[1] == '(')
      && (message.Some? ==> t == RaspiGL.AssertEglMessage(message, code))
  {
  }

  // ---------------------------------------------------------------------
  // EGL configuration

  /** The attribute list `init_ogl` writes into its 11-int buffer. */
  const ATTRIBUTE_LIST_INTS: nat := 11
  const ATTRIBUTE_LIST: seq<int> := [
    Egl.EGL_RED_SIZE, 8,
    Egl.EGL_GREEN_SIZE, 8,
    Egl.EGL_BLUE_SIZE, 8,
    Egl.EGL_ALPHA_SIZE, 8,
    Egl.EGL_SURFACE_TYPE, Egl.EGL_WINDOW_BIT,
    Egl.EGL_NONE
  ]

  /** The list fills its buffer exactly, is five pairs and a terminator,
      and is the list the framework uses by default. */
  lemma AttributeListLayout()
    ensures |ATTRIBUTE_LIST| == ATTRIBUTE_LIST_INTS == 2 * 5 + 1
    ensures Egl.WellFormedAttributes(ATTRIBUTE_LIST)
    ensures RaspiGL.DEFAULT_OPTS[RaspiGL.EglConfigAttributes] == RaspiGL.Array(RaspiGL.IntValues(ATTRIBUTE_LIST))
  {
  }

  // ---------------------------------------------------------------------
  // Pose updates

  /** `inc_and_wrap_angle`: add the increment, then correct once by a full
      turn if the sum reached 360 or fell to 0 or below. */
  function IncAndWrapAngle(angle: real, angleInc: real): (r: real)
    ensures var sum := angle + angleInc;
      && (r == sum || r == sum - 360.0 || r == sum + 360.0)
      && (r == sum <==> 0.0 < sum < 360.0)
      && (sum >= 360.0 ==> r == sum - 360.0)
      && (sum <= 0.0 ==> r == sum + 360.0)
      && (sum == 0.0 ==> r == 360.0)
      && (sum == 360.0 ==> r == 0.0)
    ensures CubeModel.AngleInRange(angle) && CubeModel.IncrementInRange(angleInc) ==>
      CubeModel.AngleInRange(r)
  {
    var sum := angle + angleInc;
    if sum >= 360.0 then sum - 360.0
    else if sum <= 0.0 then sum + 360.0
    else sum
  }

  /** `inc_and_clip_distance`: add the increment and saturate at 40 and 120. */
  function IncAndClipDistance(distance: real, distanceInc: real): (r: real)
    ensures CubeModel.MIN_DISTANCE <= r <= CubeModel.MAX_DISTANCE
    ensures var sum := distance + distanceInc;
      && (r == sum <==> CubeModel.MIN_DISTANCE <= sum <= CubeModel.MAX_DISTANCE)
      && (sum >= CubeModel.MAX_DISTANCE ==> r == CubeModel.MAX_DISTANCE)
      && (sum <= CubeModel.MIN_DISTANCE ==> r == CubeModel.MIN_DISTANCE)
  {
    var sum := distance + distanceInc;
    if sum >= 120.0 then 120.0
    else if sum <= 40.0 then 40.0
    else sum
  }

  /** Both ends of the closed range [0, 360] are reached: a pose at rest on
      360 jumps to 0, and one at rest on 0 jumps to 360. */
  lemma WrapExamples()
    ensures IncAndWrapAngle(359.5, 0.5) == 0.0
    ensures IncAndWrapAngle(0.5, -0.5) == 360.0
    ensures IncAndWrapAngle(360.0, 0.0) == 0.0
    ensures IncAndWrapAngle(0.0, 0.0) == 360.0
    ensures IncAndClipDistance(119.0, 5.0) == 120.0
    ensures IncAndClipDistance(41.0, -5.0) == 40.0
  {
  }

  /** `reset_model`: the camera 50 units back and the initial pose. */
  function ResetModel(s: CubeState): (r: (CubeState, seq<GL.Call>))
    ensures PoseOf(r.0) == CubeModel.RESET_POSE
    ensures CubeModel.Valid(PoseOf(r.0))
    ensures r.0.(rotAngleX := s.rotAngleX, rotAngleY := s.rotAngleY, rotAngleZ := s.rotAngleZ,
                 rotAngleXInc := s.rotAngleXInc, rotAngleYInc := s.rotAngleYInc, rotAngleZInc := s.rotAngleZInc,
                 distance := s.distance, distanceInc := s.distanceInc) == s
    ensures |r.1| == 3
    ensures r.1[0] == GL.MatrixModeCall(GL.ModelView)
    ensures r.1[1] == GL.LoadIdentity
    ensures r.1[2] == GL.Translatef(0.0, 0.0, -50.0)
  {
    var calls := [GL.MatrixModeCall(GL.ModelView), GL.LoadIdentity, GL.Translatef(0.0, 0.0, -50.0)];
    (s.(rotAngleX := 45.0, rotAngleY := 30.0, rotAngleZ := 0.0,
        rotAngleXInc := 0.5, rotAngleYInc := 0.5, rotAngleZInc := 0.0,
        distance := 40.0, distanceInc := 0.0), calls)
  }

  /** `update_model`: advance every angle and the distance by its increment,
      then load the model-view matrix for the new pose. */
  function UpdateModel(s: CubeState): (r: (CubeState, seq<GL.Call>))
    ensures OnlyPoseMoved(s, r.0)
    ensures r.0.rotAngleX == IncAndWrapAngle(s.rotAngleX, s.rotAngleXInc)
    ensures r.0.rotAngleY == IncAndWrapAngle(s.rotAngleY, s.rotAngleYInc)
    ensures r.0.rotAngleZ == IncAndWrapAngle(s.rotAngleZ, s.rotAngleZInc)
    ensures r.0.distance == IncAndClipDistance(s.distance, s.distanceInc)
    ensures CubeModel.Valid(PoseOf(s)) ==> CubeModel.Valid(PoseOf(r.0))
    ensures |r.1| == 5 && r.1[0] == GL.LoadIdentity
    ensures r.1[1] == GL.Translatef(0.0, 0.0, -r.0.distance)
    ensures -CubeModel.MAX_DISTANCE <= r.1[1].z <= -CubeModel.MIN_DISTANCE
    ensures forall i :: 2 <= i < 5 ==> r.1[i].Rotatef?
    ensures r.1[2] == GL.Rotatef(r.0.rotAngleX, 1.0, 0.0, 0.0)
    ensures r.1[3] == GL.Rotatef(r.0.rotAngleY, 0.0, 1.0, 0.0)
    ensures r.1[4] == GL.Rotatef(r.0.rotAngleZ, 0.0, 0.0, 1.0)
  {
    var next := s.(rotAngleX := IncAndWrapAngle(s.rotAngleX, s.rotAngleXInc),
                   rotAngleY := IncAndWrapAngle(s.rotAngleY, s.rotAngleYInc),
                   rotAngleZ := IncAndWrapAngle(s.rotAngleZ, s.rotAngleZInc),
                   distance := IncAndClipDistance(s.distance, s.distanceInc));
    (next, [GL.LoadIdentity,
            GL.Translatef(0.0, 0.0, -next.distance),
            GL.Rotatef(next.rotAngleX, 1.0, 0.0, 0.0),
            GL.Rotatef(next.rotAngleY, 0.0, 1.0, 0.0),
            GL.Rotatef(next.rotAngleZ, 0.0, 0.0, 1.0)])
  }

  /** The state after `n` frames. */
  function Updates(s: CubeState, n: nat): CubeState
  {
    if n == 0 then s else UpdateModel(Updates(s, n - 1)).0
  }

  /** Any number of frames keeps a valid pose valid and touches nothing
      but the angles and the distance. */
  lemma {:induction false} UpdatesKeepInvariant(s: CubeState, n: nat)
    ensures OnlyPoseMoved(s, Updates(s, n))
    ensures CubeModel.Valid(PoseOf(s)) ==> CubeModel.Valid(PoseOf(Updates(s, n)))
  {
    if n > 0 {
      UpdatesKeepInvariant(s, n - 1);
    }
  }

  /** One angle advanced `n` times. */
  function WrapN(angle: real, angleInc: real, n: nat): real
  {
    if n == 0 then angle else IncAndWrapAngle(WrapN(angle, angleInc, n - 1), angleInc)
  }

  /** Wrapping never loses a fraction of a turn: after `n` steps an angle
      differs from `angle + n * inc` by whole turns only. */
  lemma {:induction false} WrapIsModularSum(angle: real, angleInc: real, n: nat) returns (turns: int)
    ensures WrapN(angle, angleInc, n) == angle + (n as real) * angleInc + 360.0 * (turns as real)
  {
    if n == 0 {
      turns := 0;
    } else {
      var before := WrapIsModularSum(angle, angleInc, n - 1);
      var prev := WrapN(angle, angleInc, n - 1);
      var r := IncAndWrapAngle(prev, angleInc);
      if r == prev + angleInc {
        turns := before;
      } else if r == prev + angleInc - 360.0 {
        turns := before - 1;
      } else {
        turns := before + 1;
      }
    }
  }

  /** Each angle of the state after `n` frames is its own `n`-fold wrap. */
  lemma {:induction false} UpdatesWrapEachAngle(s: CubeState, n: nat)
    ensures Updates(s, n).rotAngleX == WrapN(s.rotAngleX, s.rotAngleXInc, n)
    ensures Updates(s, n).rotAngleY == WrapN(s.rotAngleY, s.rotAngleYInc, n)
    ensures Updates(s, n).rotAngleZ == WrapN(s.rotAngleZ, s.rotAngleZInc, n)
  {
    if n > 0 {
      UpdatesWrapEachAngle(s, n - 1);
      var prev := Updates(s, n - 1);
      assert prev.rotAngleXInc == s.rotAngleXInc && prev.rotAngleYInc == s.rotAngleYInc
        && prev.rotAngleZInc == s.rotAngleZInc by {
        UpdatesKeepInvariant(s, n - 1);
      }
    }
  }

  // ---------------------------------------------------------------------
  // The render loop

  /** A progress line is printed every this many frames. */
  const PROGRESS_INTERVAL: nat := 1000

  /** One frame's bookkeeping: count the frame; at 1000 print the
      progress line and start again from 0. Returns the new counter and
      whether the line was printed. */
  function RenderCounterStep(counter: nat): (r: (nat, bool))
    ensures r.1 <==> counter + 1 >= PROGRESS_INTERVAL
    ensures r.1 ==> r.0 == 0
    ensures !r.1 ==> r.0 == counter + 1
    ensures counter < PROGRESS_INTERVAL ==> r.0 < PROGRESS_INTERVAL
  {
    var next := counter + 1;
    if next >= 1000 then (0, true) else (next, false)
  }

  /** Starting from 0, the counter is the frame number modulo 1000 and
      the line is printed on exactly the frames numbered by a multiple of
      1000. */
  lemma CounterTracksFrames(frames: nat)
    ensures RenderCounterStep(frames % PROGRESS_INTERVAL).0 == (frames + 1) % PROGRESS_INTERVAL
    ensures RenderCounterStep(frames % PROGRESS_INTERVAL).1 <==> (frames + 1) % PROGRESS_INTERVAL == 0
  {
  }

  /** `main`'s loop after `init_ogl`, `init_model_proj` and
      `init_textures`: `iterations` is the number of passes made before
      the interrupt handler's flag is seen. */
  method MainLoop(s: CubeState, iterations: nat) returns (final: CubeState, counter: nat, progressLines: nat)
    ensures counter < PROGRESS_INTERVAL
    ensures counter == iterations % PROGRESS_INTERVAL
    ensures progressLines == iterations / PROGRESS_INTERVAL
    ensures final == Updates(s, iterations)
  {
    final, counter, progressLines := s, 0, 0;
    var i := 0;
    while i < iterations
      invariant i <= iterations
      invariant counter == i % PROGRESS_INTERVAL
      invariant progressLines == i / PROGRESS_INTERVAL
      invariant final == Updates(s, i)
    {
      var step := RenderCounterStep(counter);
      CounterTracksFrames(i);
      final := UpdateModel(final).0;
      counter := step.0;
      if step.1 {
        progressLines := progressLines + 1;
      }
      i := i + 1;
    }
  }

  // ---------------------------------------------------------------------
  // Textures

  /** `load_tex_images`: read the three images in order into the three
      texture buffers; the first missing file raises. The file system is
      a map from path (relative to the VideoCore installation) to bytes. */
  function LoadTexImages(s: CubeState, files: map<string, seq<byte>>): (r: Result<CubeState, RaspiGL.Error>)
    ensures r.Ok? <==> forall i :: 0 <= i < 3 ==> CubeModel.TEXTURE_IMAGE_FILES[i] in files
    ensures r.Ok? ==> r.value == s.(texBuf1 := files[CubeModel.TEXTURE_IMAGE_FILES[0]],
                                    texBuf2 := files[CubeModel.TEXTURE_IMAGE_FILES[1]],
                                    texBuf3 := files[CubeModel.TEXTURE_IMAGE_FILES[2]])
    ensures r.Err? ==> exists j :: (0 <= j < 3 && CubeModel.TEXTURE_IMAGE_FILES[j] !in files
      && r.error == RaspiGL.NoSuchFile(CubeModel.TEXTURE_IMAGE_FILES[j])
      && forall i :: 0 <= i < j ==> CubeModel.TEXTURE_IMAGE_FILES[i] in files)
  {
    var paths := CubeModel.TEXTURE_IMAGE_FILES;
    if paths[0] !in files then Err(RaspiGL.NoSuchFile(paths[0]))
    else if paths[1] !in files then Err(RaspiGL.NoSuchFile(paths[1]))
    else if paths[2] !in files then Err(RaspiGL.NoSuchFile(paths[2]))
    else Ok(s.(texBuf1 := files[paths[0]], texBuf2 := files[paths[1]], texBuf3 := files[paths[2]]))
  }

  /** The six uploads `init_textures` makes, in order, one per face. */
  function TextureUploads(s: CubeState): seq<CubeModel.Upload>
  {
    var size := CubeModel.IMAGE_SIZE;
    [CubeModel.Upload(0, s.texBuf1, size, size),
     CubeModel.Upload(1, s.texBuf1, size, size),
     CubeModel.Upload(2, s.texBuf2, size, size),
     CubeModel.Upload(3, s.texBuf2, size, size),
     CubeModel.Upload(4, s.texBuf3, size, size),
     CubeModel.Upload(5, s.texBuf3, size, size)]
  }

  /** `init_textures`: load the images, take the six texture names GL
      generates, and upload each image to two consecutive textures. */
  function InitTextures(s: CubeState, files: map<string, seq<byte>>, names: seq<int>)
    : (r: Result<(CubeState, seq<CubeModel.Upload>), RaspiGL.Error>)
    requires |names| == 6
    ensures r.Ok? <==> forall i :: 0 <= i < 3 ==> CubeModel.TEXTURE_IMAGE_FILES[i] in files
    ensures r.Err? ==> r.error.NoSuchFile?
    ensures r.Ok? ==> r.value.0.tex == names && |r.value.0.tex| == CubeGeometry.FACES
    ensures r.Ok? ==> CubeModel.UploadsPairImages(r.value.1,
      [files[CubeModel.TEXTURE_IMAGE_FILES[0]], files[CubeModel.TEXTURE_IMAGE_FILES[1]], files[CubeModel.TEXTURE_IMAGE_FILES[2]]])
  {
    match LoadTexImages(s, files)
    case Err(e) => Err(e)
    case Ok(loaded) =>
      var st := loaded.(tex := names);
      Ok((st, TextureUploads(st)))
  }

  // ---------------------------------------------------------------------
  // Drawing

  /** `redraw_scene`: draw the six faces, each with its own texture and a
      rotation that turns its image upright, the last one modulated by the
      vertex colours; then swap buffers. */
  function RedrawScene(s: CubeState): (calls: seq<GL.Call>)
    requires |s.tex| == CubeGeometry.FACES
    ensures |calls| == 25 && calls[24] == GL.SwapBuffers
  {
    [GL.ClearColorBuffer, GL.MatrixModeCall(GL.ModelView), GL.EnableTexture2D, GL.TexEnv(GL.Replace)]
    + GL.DrawFace(s.tex[0], GL.Rotatef(270.0, 0.0, 0.0, 1.0), 0)
    + GL.DrawFace(s.tex[1], GL.Rotatef(90.0, 0.0, 0.0, 1.0), 4)
    + GL.DrawFace(s.tex[2], GL.Rotatef(90.0, 1.0, 0.0, 0.0), 8)
    + GL.DrawFace(s.tex[3], GL.Rotatef(90.0, 1.0, 0.0, 0.0), 12)
    + GL.DrawFace(s.tex[4], GL.Rotatef(270.0, 0.0, 1.0, 0.0), 16)
    + [GL.TexEnv(GL.Modulate)]
    + GL.DrawFace(s.tex[5], GL.Rotatef(90.0, 0.0, 1.0, 0.0), 20)
    + [GL.DisableTexture2D, GL.SwapBuffers]
  }

  /** The strips a frame draws: strip `f` starts at vertex `4f`, has four
      vertices and is drawn with texture `f`, whatever was bound before. */
  lemma RedrawDrawsFaces(s: CubeState, bound: int)
    requires |s.tex| == CubeGeometry.FACES
    ensures GL.DrawsWithTexture(RedrawScene(s), bound)
      == seq(CubeGeometry.FACES, f requires 0 <= f < CubeGeometry.FACES => (4 * f, 4, s.tex[f]))
  {
    var prefix := [GL.ClearColorBuffer, GL.MatrixModeCall(GL.ModelView), GL.EnableTexture2D, GL.TexEnv(GL.Replace)];
    var f0 := GL.DrawFace(s.tex[0], GL.Rotatef(270.0, 0.0, 0.0, 1.0), 0);
    var f1 := GL.DrawFace(s.tex[1], GL.Rotatef(90.0, 0.0, 0.0, 1.0), 4);
    var f2 := GL.DrawFace(s.tex[2], GL.Rotatef(90.0, 1.0, 0.0, 0.0), 8);
    var f3 := GL.DrawFace(s.tex[3], GL.Rotatef(90.0, 1.0, 0.0, 0.0), 12);
    var f4 := GL.DrawFace(s.tex[4], GL.Rotatef(270.0, 0.0, 1.0, 0.0), 16);
    var modulate := [GL.TexEnv(GL.Modulate)];
    var f5 := GL.DrawFace(s.tex[5], GL.Rotatef(90.0, 0.0, 1.0, 0.0), 20);
    var suffix := [GL.DisableTexture2D, GL.SwapBuffers];
    GL.NoDraws(prefix, bound);
    GL.DrawFaceDraws(s.tex[0], GL.Rotatef(270.0, 0.0, 0.0, 1.0), 0, bound);
    GL.DrawFaceDraws(s.tex[1], GL.Rotatef(90.0, 0.0, 0.0, 1.0), 4, s.tex[0]);
    GL.DrawFaceDraws(s.tex[2], GL.Rotatef(90.0, 1.0, 0.0, 0.0), 8, s.tex[1]);
    GL.DrawFaceDraws(s.tex[3], GL.Rotatef(90.0, 1.0, 0.0, 0.0), 12, s.tex[2]);
    GL.DrawFaceDraws(s.tex[4], GL.Rotatef(270.0, 0.0, 1.0, 0.0), 16, s.tex[3]);
    GL.NoDraws(modulate, s.tex[4]);
    GL.DrawFaceDraws(s.tex[5], GL.Rotatef(90.0, 0.0, 1.0, 0.0), 20, s.tex[4]);
    GL.NoDraws(suffix, s.tex[5]);
    var c1 := prefix + f0;
    GL.DrawsWithTextureAppend(prefix, f0, bound);
    GL.BoundAfterAppend(prefix, f0, bound);
    var c2 := c1 + f1;
    GL.DrawsWithTextureAppend(c1, f1, bound);
    GL.BoundAfterAppend(c1, f1, bound);
    var c3 := c2 + f2;
    GL.DrawsWithTextureAppend(c2, f2, bound);
    GL.BoundAfterAppend(c2, f2, bound);
    var c4 := c3 + f3;
    GL.DrawsWithTextureAppend(c3, f3, bound);
    GL.BoundAfterAppend(c3, f3, bound);
    var c5 := c4 + f4;
    GL.DrawsWithTextureAppend(c4, f4, bound);
    GL.BoundAfterAppend(c4, f4, bound);
    var c6 := c5 + modulate;
    GL.DrawsWithTextureAppend(c5, modulate, bound);
    GL.BoundAfterAppend(c5, modulate, bound);
    var c7 := c6 + f5;
    GL.DrawsWithTextureAppend(c6, f5, bound);
    GL.BoundAfterAppend(c6, f5, bound);
    GL.DrawsWithTextureAppend(c7, suffix, bound);
    assert RedrawScene(s) == c7 + suffix;
  }

  /** The six strips cover the 24 vertices exactly once, in order and
      without overlap. */
  lemma StripsPartitionVertices(s: CubeState, bound: int)
    requires |s.tex| == CubeGeometry.FACES
    ensures var draws := GL.DrawsWithTexture(RedrawScene(s), bound);
      && |draws| == CubeGeometry.FACES
      && draws[0].0 == 0
      && draws[|draws| - 1].0 + draws[|draws| - 1].1 == CubeGeometry.VERTEX_COUNT
      && (forall f :: 0 <= f < |draws| - 1 ==> draws[f].0 + draws[f].1 == draws[f + 1].0)
      && (forall v :: 0 <= v < CubeGeometry.VERTEX_COUNT ==>
            draws[v / CubeGeometry.VERTICES_PER_FACE].0 <= v
            < draws[v / CubeGeometry.VERTICES_PER_FACE].0 + draws[v / CubeGeometry.VERTICES_PER_FACE].1)
  {
    RedrawDrawsFaces(s, bound);
  }

  /** Strip `f` draws precisely the four vertices the geometry table lists
      for face `f`. */
  lemma StripsDrawTheirFaces(s: CubeState, bound: int)
    requires |s.tex| == CubeGeometry.FACES
    ensures var draws := GL.DrawsWithTexture(RedrawScene(s), bound);
      && |draws| == CubeGeometry.FACES
      && forall f, k :: 0 <= f < CubeGeometry.FACES && 0 <= k < CubeGeometry.VERTICES_PER_FACE ==>
           draws[f].1 == CubeGeometry.VERTICES_PER_FACE
           && 0 <= draws[f].0 + k < CubeGeometry.VERTEX_COUNT
           && CubeGeometry.Vertices()[draws[f].0 + k] == CubeGeometry.POSITIONS[f][k]
  {
    RedrawDrawsFaces(s, bound);
    var draws := GL.DrawsWithTexture(RedrawScene(s), bound);
    var vs := CubeGeometry.Vertices();
    forall f, k | 0 <= f < CubeGeometry.FACES && 0 <= k < CubeGeometry.VERTICES_PER_FACE
      ensures draws[f].1 == CubeGeometry.VERTICES_PER_FACE
      ensures 0 <= draws[f].0 + k < CubeGeometry.VERTEX_COUNT
      ensures vs[draws[f].0 + k] == CubeGeometry.POSITIONS[f][k]
    {
      var v := 4 * f + k;
      assert draws[f] == (4 * f, 4, s.tex[f]);
      assert v / 4 == f && v % 4 == k;
      assert vs[v] == CubeGeometry.POSITIONS[v / 4][v % 4];
    }
  }
}

=== FILE: hello_triangle_rubified.dfy ===
/** The rotating cube rewritten on the framework
    (examples/hello_triangle_rubified.rb): class `Cube` keeps its pose and
    textures in instance variables, loads images through
    `load_texture_from_file`, and does its per-frame work in `tick`. Its
    pose rules are a second copy of the original demo's, and are proved
    to agree with them. */
module HelloTriangleRubified {

  import opened Common
  import Digits
  import GL
  import RaspiGL
  import CubeModel
  import CubeGeometry
  import Original = HelloTriangleOriginal

  /** The instance variables `Cube` adds to the framework's. */
  datatype Cube = Cube(
    rotAngleX: real, rotAngleY: real, rotAngleZ: real,
    rotAngleXInc: real, rotAngleYInc: real, rotAngleZInc: real,
    distance: real, distanceInc: real,
    tex: seq<int>,
    texBuf1: RaspiGL.Buffer, texBuf2: RaspiGL.Buffer, texBuf3: RaspiGL.Buffer)

  function PoseOf(c: Cube): CubeModel.Pose {
    CubeModel.Pose(c.rotAngleX, c.rotAngleY, c.rotAngleZ,
                   c.rotAngleXInc, c.rotAngleYInc, c.rotAngleZInc,
                   c.distance, c.distanceInc)
  }

  // ---------------------------------------------------------------------
  // Pose updates

  /** `Cube#inc_and_wrap_angle`. */
  function IncAndWrapAngle(angle: real, angleInc: real): (r: real)
    ensures CubeModel.AngleInRange(angle) && CubeModel.IncrementInRange(angleInc) ==>
      CubeModel.AngleInRange(r)
    ensures angle + angleInc == 0.0 ==> r == 360.0
    ensures angle + angleInc == 360.0 ==> r == 0.0
  {
    var sum := angle + angleInc;
    if sum >= 360.0 then sum - 360.0
    else if sum <= 0.0 then sum + 360.0
    else sum
  }

  /** `Cube#inc_and_clip_distance`. */
  function IncAndClipDistance(distance: real, distanceInc: real): (r: real)
    ensures CubeModel.MIN_DISTANCE <= r <= CubeModel.MAX_DISTANCE
    ensures distance + distanceInc >= CubeModel.MAX_DISTANCE ==> r == CubeModel.MAX_DISTANCE
    ensures distance + distanceInc <= CubeModel.MIN_DISTANCE ==> r == CubeModel.MIN_DISTANCE
  {
    var sum := distance + distanceInc;
    if sum >= 120.0 then 120.0
    else if sum <= 40.0 then 40.0
    else sum
  }

  /** The two copies of the pose rules compute the same function. */
  lemma PoseRulesAgree(value: real, inc: real)
    ensures IncAndWrapAngle(value, inc) == Original.IncAndWrapAngle(value, inc)
    ensures IncAndClipDistance(value, inc) == Original.IncAndClipDistance(value, inc)
  {
  }

  /** `Cube#reset_model`. */
  function ResetModel(c: Cube): (r: (Cube, seq<GL.Call>))
    ensures PoseOf(r.0) == CubeModel.RESET_POSE
    ensures CubeModel.Valid(PoseOf(r.0))
    ensures r.0.tex == c.tex && r.0.texBuf1 == c.texBuf1 && r.0.texBuf2 == c.texBuf2 && r.0.texBuf3 == c.texBuf3
    ensures |r.1| == 3
    ensures r.1[0] == GL.MatrixModeCall(GL.ModelView)
    ensures r.1[1] == GL.LoadIdentity
    ensures r.1[2] == GL.Translatef(0.0, 0.0, -50.0)
  {
    var calls := [GL.MatrixModeCall(GL.ModelView), GL.LoadIdentity, GL.Translatef(0.0, 0.0, -50.0)];
    (c.(rotAngleX := 45.0, rotAngleY := 30.0, rotAngleZ := 0.0,
        rotAngleXInc := 0.5, rotAngleYInc := 0.5, rotAngleZInc := 0.0,
        distance := 40.0, distanceInc := 0.0), calls)
  }

  /** Both demos reset to the same pose with the same calls. */
  lemma ResetAgrees(c: Cube, s: Original.CubeState)
    ensures PoseOf(ResetModel(c).0) == Original.PoseOf(Original.ResetModel(s).0)
    ensures ResetModel(c).1 == Original.ResetModel(s).1
  {
  }

  /** `Cube#update_model`. */
  function UpdateModel(c: Cube): (r: (Cube, seq<GL.Call>))
    ensures r.0 == c.(rotAngleX := r.0.rotAngleX, rotAngleY := r.0.rotAngleY,
                      rotAngleZ := r.0.rotAngleZ, distance := r.0.distance)
    ensures CubeModel.Valid(PoseOf(c)) ==> CubeModel.Valid(PoseOf(r.0))
    ensures r.0.rotAngleX == IncAndWrapAngle(c.rotAngleX, c.rotAngleXInc)
    ensures r.0.rotAngleY == IncAndWrapAngle(c.rotAngleY, c.rotAngleYInc)
    ensures r.0.rotAngleZ == IncAndWrapAngle(c.rotAngleZ, c.rotAngleZInc)
    ensures r.0.distance == IncAndClipDistance(c.distance, c.distanceInc)
    ensures |r.1| == 5 && r.1[0] == GL.LoadIdentity
    ensures r.1[1] == GL.Translatef(0.0, 0.0, -r.0.distance)
    ensures r.1[2] == GL.Rotatef(r.0.rotAngleX, 1.0, 0.0, 0.0)
    ensures r.1[3] == GL.Rotatef(r.0.rotAngleY, 0.0, 1.0, 0.0)
    ensures r.1[4] == GL.Rotatef(r.0.rotAngleZ, 0.0, 0.0, 1.0)
  {
    var next := c.(rotAngleX := IncAndWrapAngle(c.rotAngleX, c.rotAngleXInc),
                   rotAngleY := IncAndWrapAngle(c.rotAngleY, c.rotAngleYInc),
                   rotAngleZ := IncAndWrapAngle(c.rotAngleZ, c.rotAngleZInc),
                   distance := IncAndClipDistance(c.distance, c.distanceInc));
    (next, [GL.LoadIdentity,
            GL.Translatef(0.0, 0.0, -next.distance),
            GL.Rotatef(next.rotAngleX, 1.0, 0.0, 0.0),
            GL.Rotatef(next.rotAngleY, 0.0, 1.0, 0.0),
            GL.Rotatef(next.rotAngleZ, 0.0, 0.0, 1.0)])
  }

  /** From the same pose, both demos move to the same pose and issue the
      same calls. */
  lemma UpdateAgrees(c: Cube, s: Original.CubeState)
    requires PoseOf(c) == Original.PoseOf(s)
    ensures PoseOf(UpdateModel(c).0) == Original.PoseOf(Original.UpdateModel(s).0)
    ensures UpdateModel(c).1 == Original.UpdateModel(s).1
  {
    PoseRulesAgree(c.rotAngleX, c.rotAngleXInc);
    PoseRulesAgree(c.rotAngleY, c.rotAngleYInc);
    PoseRulesAgree(c.rotAngleZ, c.rotAngleZInc);
    PoseRulesAgree(c.distance, c.distanceInc);
  }

  // ---------------------------------------------------------------------
  // Textures

  /** `Cube#load_tex_images`: three `load_texture_from_file` calls, in
      order; the first missing file raises. */
  function LoadTexImages(c: Cube, files: map<string, seq<byte>>): (r: Result<Cube, RaspiGL.Error>)
    ensures r.Ok? <==> forall i :: 0 <= i < 3 ==> CubeModel.TEXTURE_IMAGE_FILES[i] in files
    ensures r.Ok? ==> r.value == c.(texBuf1 := RaspiGL.CharBuffer(files[CubeModel.TEXTURE_IMAGE_FILES[0]]),
                                    texBuf2 := RaspiGL.CharBuffer(files[CubeModel.TEXTURE_IMAGE_FILES[1]]),
                                    texBuf3 := RaspiGL.CharBuffer(files[CubeModel.TEXTURE_IMAGE_FILES[2]]))
  {
    var paths := CubeModel.TEXTURE_IMAGE_FILES;
    match RaspiGL.LoadTextureFromFile(files, paths[0])
    case Err(e) => Err(e)
    case Ok(buf1) =>
      match RaspiGL.LoadTextureFromFile(files, paths[1])
      case Err(e) => Err(e)
      case Ok(buf2) =>
        match RaspiGL.LoadTextureFromFile(files, paths[2])
        case Err(e) => Err(e)
        case Ok(buf3) => Ok(c.(texBuf1 := buf1, texBuf2 := buf2, texBuf3 := buf3))
  }

  /** Both demos load the same files in the same order and fail on the
      same missing file. */
  lemma LoadAgrees(c: Cube, s: Original.CubeState, files: map<string, seq<byte>>)
    ensures LoadTexImages(c, files).Ok? <==> Original.LoadTexImages(s, files).Ok?
    ensures LoadTexImages(c, files).Err? ==> LoadTexImages(c, files).error == Original.LoadTexImages(s, files).error
    ensures LoadTexImages(c, files).Ok? ==>
      && LoadTexImages(c, files).value.texBuf1 == RaspiGL.CharBuffer(Original.LoadTexImages(s, files).value.texBuf1)
      && LoadTexImages(c, files).value.texBuf2 == RaspiGL.CharBuffer(Original.LoadTexImages(s, files).value.texBuf2)
      && LoadTexImages(c, files).value.texBuf3 == RaspiGL.CharBuffer(Original.LoadTexImages(s, files).value.texBuf3)
  {
  }

  /** The bytes a texture buffer hands to `glTexImage2D`. */
  function Pixels(b: RaspiGL.Buffer): seq<byte>
  {
    if b.CharBuffer? then b.bytes else []
  }

  /** The six uploads `Cube#init_textures` makes, in order. */
  function TextureUploads(c: Cube): seq<CubeModel.Upload>
  {
    var size := CubeModel.IMAGE_SIZE;
    [CubeModel.Upload(0, Pixels(c.texBuf1), size, size),
     CubeModel.Upload(1, Pixels(c.texBuf1), size, size),
     CubeModel.Upload(2, Pixels(c.texBuf2), size, size),
     CubeModel.Upload(3, Pixels(c.texBuf2), size, size),
     CubeModel.Upload(4, Pixels(c.texBuf3), size, size),
     CubeModel.Upload(5, Pixels(c.texBuf3), size, size)]
  }

  /** `Cube#init_textures`: texture `i` shows image `i / 2` of Lucca,
      Djenne, Gaudi. */
  function InitTextures(c: Cube, files: map<string, seq<byte>>, names: seq<int>)
    : (r: Result<(Cube, seq<CubeModel.Upload>), RaspiGL.Error>)
    requires |names| == 6
    ensures r.Ok? <==> forall i :: 0 <= i < 3 ==> CubeModel.TEXTURE_IMAGE_FILES[i] in files
    ensures r.Err? ==> r.error.NoSuchFile?
    ensures r.Ok? ==> r.value.0.tex == names
    ensures r.Ok? ==> CubeModel.UploadsPairImages(r.value.1,
      [files[CubeModel.TEXTURE_IMAGE_FILES[0]], files[CubeModel.TEXTURE_IMAGE_FILES[1]], files[CubeModel.TEXTURE_IMAGE_FILES[2]]])
  {
    match LoadTexImages(c, files)
    case Err(e) => Err(e)
    case Ok(loaded) =>
      var next := loaded.(tex := names);
      Ok((next, TextureUploads(next)))
  }

  // ---------------------------------------------------------------------
  // Drawing and the frame

  /** `Cube#redraw_scene`: the original's face drawing, without the buffer
      swap, which the framework's `loop` issues after `tick`. */
  function RedrawScene(c: Cube): (calls: seq<GL.Call>)
    requires |c.tex| == CubeGeometry.FACES
    ensures |calls| == 24
  {
    [GL.ClearColorBuffer, GL.MatrixModeCall(GL.ModelView), GL.EnableTexture2D, GL.TexEnv(GL.Replace)]
    + GL.DrawFace(c.tex[0], GL.Rotatef(270.0, 0.0, 0.0, 1.0), 0)
    + GL.DrawFace(c.tex[1], GL.Rotatef(90.0, 0.0, 0.0, 1.0), 4)
    + GL.DrawFace(c.tex[2], GL.Rotatef(90.0, 1.0, 0.0, 0.0), 8)
    + GL.DrawFace(c.tex[3], GL.Rotatef(90.0, 1.0, 0.0, 0.0), 12)
    + GL.DrawFace(c.tex[4], GL.Rotatef(270.0, 0.0, 1.0, 0.0), 16)
    + [GL.TexEnv(GL.Modulate)]
    + GL.DrawFace(c.tex[5], GL.Rotatef(90.0, 0.0, 1.0, 0.0), 20)
    + [GL.DisableTexture2D]
  }

  /** With the same textures, the original's redraw is this one followed
      by the buffer swap, so it draws the same strips. */
  lemma RedrawAgrees(c: Cube, s: Original.CubeState, bound: int)
    requires |c.tex| == CubeGeometry.FACES && s.tex == c.tex
    ensures Original.RedrawScene(s) == RedrawScene(c) + [GL.SwapBuffers]
    ensures GL.DrawsWithTexture(RedrawScene(c), bound) == GL.DrawsWithTexture(Original.RedrawScene(s), bound)
  {
    GL.DrawsWithTextureAppend(RedrawScene(c), [GL.SwapBuffers], bound);
    GL.NoDraws([GL.SwapBuffers], GL.BoundAfter(RedrawScene(c), bound));
  }

  /** What one `tick` does: the line printed, if any, the cube after the
      update and the calls issued. */
  datatype TickResult = TickResult(printed: Option<string>, cube: Cube, calls: seq<GL.Call>)

  /** `Cube#tick`, given the housekeeping `loop` has just done: print the
      frame rate exactly when `:new_second` is set, then update and redraw. */
  function Tick(c: Cube, h: RaspiGL.Housekeeping): (r: TickResult)
    requires |c.tex| == CubeGeometry.FACES
    ensures r.printed.Some? <==> h.newSecond
    ensures r.printed.Some? ==> r.printed.value == "FPS: " + Digits.Decimal(h.fps)
    ensures r.cube == UpdateModel(c).0
    ensures r.calls == UpdateModel(c).1 + RedrawScene(r.cube)
  {
    var printed := if h.newSecond then Some("FPS: " + Digits.Decimal(h.fps)) else None;
    var (next, moves) := UpdateModel(c);
    TickResult(printed, next, moves + RedrawScene(next))
  }

  /** The printed line is the framework's frame-rate report, from which
      the frame rate can be read back. */
  lemma TickPrintsFps(c: Cube, h: RaspiGL.Housekeeping)
    requires |c.tex| == CubeGeometry.FACES
    ensures Tick(c, h).printed == RaspiGL.FpsReport(h)
  {
  }

  /** A frame of the framework's loop running this cube (housekeeping,
      `tick`, buffer swap) issues exactly the calls one pass of the
      original's render loop does, and leaves the same pose. */
  lemma FrameAgrees(c: Cube, s: Original.CubeState, h: RaspiGL.Housekeeping)
    requires |c.tex| == CubeGeometry.FACES
    requires PoseOf(c) == Original.PoseOf(s) && s.tex == c.tex
    ensures Tick(c, h).calls + [GL.SwapBuffers]
      == Original.UpdateModel(s).1 + Original.RedrawScene(Original.UpdateModel(s).0)
    ensures PoseOf(Tick(c, h).cube) == Original.PoseOf(Original.UpdateModel(s).0)
  {
    UpdateAgrees(c, s);
    var next := UpdateModel(c).0;
    RedrawAgrees(next, Original.UpdateModel(s).0, 0);
    assert Tick(c, h).calls + [GL.SwapBuffers] == UpdateModel(c).1 + (RedrawScene(next) + [GL.SwapBuffers]);
  }
}

=== FILE: marquee.dfy ===
/** The scrolling text demo (examples/marquee.rb): a quad four times the
    size of the rendered text image, vertically centred, moved left by
    `step` every frame and jumped forward by two quad widths once it is
    fully past the left edge. Image rendering is outside the model; only
    the image's size enters it. */
module Marquee {

  import opened Common
  import Digits
  import GL
  import RaspiGL

  /** The text image's size: `make_marquee_image` always renders into a
      1024 x 128 canvas. */
  const IMAGE_COLUMNS: nat := 1024
  const IMAGE_ROWS: nat := 128

  /** A texture image `setup` reads, relative to the VideoCore
      installation path. */
  const TEST_IMAGE_FILE: string := "src/hello_pi/hello_triangle/Djenne_128_128.raw"

  /** The quad is this many times the image's size. */
  const QUAD_SCALE: nat := 4

  /** The initial scroll step, in GL fixed-point units per frame. */
  const INITIAL_STEP: int := 4

  /** The instance variables `Marquee` adds to the framework's. */
  datatype Marquee = Marquee(
    textures: seq<int>,
    quadWidth: int, quadHeight: int,
    quadCoords: Option<RaspiGL.Buffer>,
    textureCoords: Option<RaspiGL.Buffer>,
    step: int, pos: int)

  /** The quad's corners in triangle-strip order: (0,0), (0,h), (w,0), (w,h). */
  function QuadCorners(w: int, h: int): seq<RaspiGL.Value>
  {
    [RaspiGL.Int(0), RaspiGL.Int(0), RaspiGL.Int(0), RaspiGL.Int(h),
     RaspiGL.Int(w), RaspiGL.Int(0), RaspiGL.Int(w), RaspiGL.Int(h)]
  }

  /** The texture's corners in the same order, as Floats. */
  const TEXTURE_CORNER_COORDS: seq<real> := [0.0, 0.0, 0.0, 1.0, 1.0, 0.0, 1.0, 1.0]
  const TEXTURE_CORNERS: seq<RaspiGL.Value> := RaspiGL.Floats(TEXTURE_CORNER_COORDS)

  /** The quad's corners load into an int buffer holding exactly them,
      unless a side does not fit a C `int`. */
  lemma QuadCornersLoad(w: nat, h: nat)
    ensures RaspiGL.LoadCoords(QuadCorners(w, h)).Ok? <==> InInt32(w) && InInt32(h)
    ensures InInt32(w) && InInt32(h) ==>
      RaspiGL.LoadCoords(QuadCorners(w, h)) == Ok(Some(RaspiGL.IntBuffer([0, 0, 0, h, w, 0, w, h])))
    ensures !(InInt32(w) && InInt32(h)) ==> RaspiGL.LoadCoords(QuadCorners(w, h)) == Err(RaspiGL.RangeError)
  {
    var coords := QuadCorners(w, h);
    assert RaspiGL.IsFixnum(coords[0]);
    var ints := RaspiGL.ToCInts(coords);
    if InInt32(w) && InInt32(h) {
      assert forall i :: 0 <= i < |coords| ==> RaspiGL.ToCInt(coords[i]) == Ok(coords[i].i);
      assert ints.Ok?;
      assert ints.value == [0, 0, 0, h, w, 0, w, h];
    } else {
      assert !RaspiGL.ToCInt(coords[3]).Ok? || !RaspiGL.ToCInt(coords[4]).Ok?;
      assert ints.Err?;
    }
  }

  /** The texture's corners load into a float buffer holding exactly them. */
  lemma TextureCornersLoad()
    ensures RaspiGL.LoadCoords(TEXTURE_CORNERS) == Ok(Some(RaspiGL.FloatBuffer([0.0, 0.0, 0.0, 1.0, 1.0, 0.0, 1.0, 1.0])))
  {
    RaspiGL.FloatsLoad(TEXTURE_CORNER_COORDS);
  }

  /** The result of `setup`: the marquee's state and the one translation
      that centres the quad vertically. */
  datatype SetUp = SetUp(marquee: Marquee, centring: GL.Call)

  /** `Marquee#setup` for an image of `columns` x `rows` pixels on a
      surface `height` units high, with the two texture names GL generated.
      The Djenne image is read (and then never used), so a missing file
      raises; any number FFI cannot write into a C `int` raises
      `RangeError`. */
  function Setup(files: map<string, seq<byte>>, columns: nat, rows: nat, height: int, textures: seq<int>)
    : (r: Result<SetUp, RaspiGL.Error>)
    ensures r.Ok? <==> TEST_IMAGE_FILE in files
                       && InInt32(QUAD_SCALE * columns) && InInt32(QUAD_SCALE * rows)
                       && InInt32((height - QUAD_SCALE * rows) / 2)
    ensures TEST_IMAGE_FILE !in files ==> r == Err(RaspiGL.NoSuchFile(TEST_IMAGE_FILE))
    ensures TEST_IMAGE_FILE in files && r.Err? ==> r.error == RaspiGL.RangeError
    ensures r.Ok? ==>
      var m := r.value.marquee;
      && m.textures == textures
      && m.quadWidth == QUAD_SCALE * columns && m.quadHeight == QUAD_SCALE * rows
      && m.quadCoords == Some(RaspiGL.IntBuffer([0, 0, 0, m.quadHeight, m.quadWidth, 0, m.quadWidth, m.quadHeight]))
      && m.textureCoords == Some(RaspiGL.FloatBuffer([0.0, 0.0, 0.0, 1.0, 1.0, 0.0, 1.0, 1.0]))
      && m.step == INITIAL_STEP && m.pos == 0
    ensures r.Ok? ==>
      var c := r.value.centring;
      && c.Translatex? && c.fx == 0 && c.fz == 0
      && 2 * c.fy <= height - r.value.marquee.quadHeight < 2 * c.fy + 2
  {
    var quadWidth := columns * 4;
    var quadHeight := rows * 4;
    QuadCornersLoad(quadWidth, quadHeight);
    TextureCornersLoad();
    match RaspiGL.LoadTextureFromFile(files, TEST_IMAGE_FILE)
    case Err(e) => Err(e)
    case Ok(_) =>
      match RaspiGL.LoadCoords(QuadCorners(quadWidth, quadHeight))
      case Err(e) => Err(e)
      case Ok(quadCoords) =>
        match RaspiGL.LoadCoords(TEXTURE_CORNERS)
        case Err(e) => Err(e)
        case Ok(textureCoords) =>
          var offset := (height - quadHeight) / 2;
          if !InInt32(offset) then Err(RaspiGL.RangeError)
          else Ok(SetUp(Marquee(textures, quadWidth, quadHeight, quadCoords, textureCoords, 4, 0),
                        GL.Translatex(0, offset, 0)))
  }

  /** The scroll invariant: a positive step no wider than the quad, a
      wrap-around jump FFI can write, and the quad's left edge within one
      quad width of the origin on either side. */
  predicate Valid(m: Marquee) {
    && 0 < m.step <= m.quadWidth
    && 2 * m.quadWidth <= INT32_MAX
    && -m.quadWidth <= m.pos < m.quadWidth
  }

  /** Setting up for the demo's own 1024 x 128 image on any surface whose
      height is a C `int` succeeds and establishes the invariant. */
  lemma {:induction false} SetupEstablishesValid(files: map<string, seq<byte>>, height: int, textures: seq<int>)
    requires TEST_IMAGE_FILE in files && InInt32(height)
    ensures var r := Setup(files, IMAGE_COLUMNS, IMAGE_ROWS, height, textures);
      && r.Ok? && Valid(r.value.marquee)
      && r.value.marquee.quadWidth == 4096 && r.value.marquee.quadHeight == 512
  {
    var r := Setup(files, IMAGE_COLUMNS, IMAGE_ROWS, height, textures);
    assert InInt32((height - QUAD_SCALE * IMAGE_ROWS) / 2);
    assert r.Ok?;
  }

  /** `Marquee#redraw`: draw the quad, move left by `step`, and once the
      position is below minus one quad width jump forward by two. */
  function Redraw(m: Marquee): (r: Result<(Marquee, seq<GL.Call>), RaspiGL.Error>)
    requires |m.textures| == 2
    ensures r.Err? <==> !InInt32(-m.step) || (m.pos - m.step < -m.quadWidth && !InInt32(2 * m.quadWidth))
    ensures r.Err? ==> r.error == RaspiGL.RangeError
    ensures r.Ok? ==> r.value.0 == m.(pos := r.value.0.pos)
    ensures r.Ok? && m.pos - m.step >= -m.quadWidth ==> r.value.0.pos == m.pos - m.step
    ensures r.Ok? && m.pos - m.step < -m.quadWidth ==> r.value.0.pos == m.pos - m.step + 2 * m.quadWidth
    ensures Valid(m) ==> r.Ok? && Valid(r.value.0)
  {
    if !InInt32(-m.step) then Err(RaspiGL.RangeError)
    else
      var drawn := [GL.ClearColorBuffer, GL.TexEnv(GL.Replace), GL.BindTexture(m.textures[0]), GL.DrawStrip(0, 4)];
      var pos := m.pos - m.step;
      if pos < -m.quadWidth then
        if !InInt32(m.quadWidth * 2) then Err(RaspiGL.RangeError)
        else Ok((m.(pos := pos + m.quadWidth * 2),
                 drawn + [GL.Translatex(-m.step, 0, 0), GL.Translatex(m.quadWidth * 2, 0, 0)]))
      else Ok((m.(pos := pos), drawn + [GL.Translatex(-m.step, 0, 0)]))
  }

  /** What is drawn and what is moved agree: one strip of four vertices
      with the marquee texture, and a total x translation equal to the
      change of `pos`. */
  lemma RedrawMovesByPos(m: Marquee, bound: int)
    requires |m.textures| == 2 && Redraw(m).Ok?
    ensures var (next, calls) := Redraw(m).value;
      && GL.TotalTranslateX(calls) == next.pos - m.pos
      && GL.DrawsWithTexture(calls, bound) == [(0, 4, m.textures[0])]
  {
    var (next, calls) := Redraw(m).value;
    var drawn := [GL.ClearColorBuffer, GL.TexEnv(GL.Replace), GL.BindTexture(m.textures[0]), GL.DrawStrip(0, 4)];
    var moves := calls[4..];
    assert calls == drawn + moves;
    if m.pos - m.step < -m.quadWidth {
      assert moves == [GL.Translatex(-m.step, 0, 0), GL.Translatex(m.quadWidth * 2, 0, 0)];
      assert moves[1..][1..] == [];
      assert GL.TotalTranslateX(moves[1..]) == m.quadWidth * 2;
      assert GL.TotalTranslateX(moves) == -m.step + m.quadWidth * 2;
    } else {
      assert moves == [GL.Translatex(-m.step, 0, 0)];
      assert moves[1..] == [];
      assert GL.TotalTranslateX(moves) == -m.step;
    }
    GL.NoTranslations(drawn);
    GL.TotalTranslateXAppend(drawn, moves);
    assert drawn[1..][1..][1..][1..] == [];
    var t := m.textures[0];
    assert GL.DrawsWithTexture(drawn[1..][1..][1..], t) == [(0, 4, t)];
    assert GL.DrawsWithTexture(drawn[1..][1..], bound) == [(0, 4, t)];
    assert GL.DrawsWithTexture(drawn[1..], bound) == [(0, 4, t)];
    assert GL.DrawsWithTexture(drawn, bound) == [(0, 4, t)];
    assert GL.BoundAfter(drawn[1..][1..][1..], t) == t;
    assert GL.BoundAfter(drawn[1..][1..], bound) == t;
    assert GL.BoundAfter(drawn, bound) == t;
    GL.DrawsWithTextureAppend(drawn, moves, bound);
    GL.NoDraws(moves, GL.BoundAfter(drawn, bound));
  }

  /** The state after `n` frames of a valid marquee. */
  function Redraws(m: Marquee, n: nat): (r: Marquee)
    requires |m.textures| == 2 && Valid(m)
    ensures Valid(r) && r == m.(pos := r.pos)
  {
    if n == 0 then m else Redraw(Redraws(m, n - 1)).value.0
  }

  /** The position never drifts from the straight scroll by anything but
      whole jumps of two quad widths. */
  lemma {:induction false} ScrollIsPeriodic(m: Marquee, n: nat) returns (jumps: nat)
    requires |m.textures| == 2 && Valid(m)
    ensures Redraws(m, n).pos == m.pos - n * m.step + jumps * (2 * m.quadWidth)
    ensures jumps <= n
  {
    if n == 0 {
      jumps := 0;
    } else {
      var before := ScrollIsPeriodic(m, n - 1);
      var prev := Redraws(m, n - 1);
      assert Redraws(m, n) == Redraw(prev).value.0;
      assert prev.step == m.step && prev.quadWidth == m.quadWidth;
      StepDistributes(n, m.step);
      if prev.pos - prev.step >= -prev.quadWidth {
        jumps := before;
      } else {
        jumps := before + 1;
        StepDistributes(jumps, 2 * m.quadWidth);
      }
    }
  }

  lemma StepDistributes(n: nat, k: int)
    requires 0 < n
    ensures n * k == (n - 1) * k + k
  {
  }

  /** What one `tick` does. */
  datatype TickResult = TickResult(printed: Option<string>, marquee: Marquee, calls: seq<GL.Call>)

  /** `Marquee#tick`: the frame-rate line exactly when `:new_second` is
      set, then a redraw. */
  function Tick(m: Marquee, h: RaspiGL.Housekeeping): (r: Result<TickResult, RaspiGL.Error>)
    requires |m.textures| == 2
    ensures r.Ok? <==> Redraw(m).Ok?
    ensures r.Ok? ==> r.value.printed == RaspiGL.FpsReport(h)
    ensures r.Ok? ==> r.value.marquee == Redraw(m).value.0 && r.value.calls == Redraw(m).value.1
  {
    var printed := if h.newSecond then Some("FPS: " + Digits.Decimal(h.fps)) else None;
    match Redraw(m)
    case Err(e) => Err(e)
    case Ok((next, calls)) => Ok(TickResult(printed, next, calls))
  }
}

=== FILE: raspigl.dfy ===
/** The framework class `RaspiGL` (lib/raspigl.rb) without its native calls:
    option merging and checking, the per-frame housekeeping of the main
    loop, surface dimensions, the dispmanx source and destination
    rectangles, buffer construction and the error-raising asserts. */
module RaspiGL {

  import opened Common
  import Digits
  import Egl

  /** The Ruby values the framework inspects: option values and the
      elements of coordinate arrays. */
  datatype Value = Nil | Bool(b: bool) | Int(i: int) | Float(f: real) | Array(items: seq<Value>)

  /** Ruby truthiness: everything except `nil` and `false`. */
  predicate Truthy(v: Value) {
    !(v.Nil? || v == Bool(false))
  }

  /** Keys of the options hash the framework reads; any other symbol a user
      passes is kept but never read. */
  datatype Key =
    | MainLoopSleep
    | DefaultBackgroundColor
    | EglConfigAttributes
    | WidthKey
    | HeightKey
    | OtherKey(name: string)

  type Options = map<Key, Value>

  /** The exceptions the modelled code can raise. */
  datatype Error =
    | RaspiGLError(message: Option<string>)
    | RuntimeError(text: string)
    | NoMethodError
    | TypeError
    | RangeError
    | NoSuchFile(path: string)

  function IntValues(ns: seq<int>): (vs: seq<Value>)
    ensures |vs| == |ns|
    ensures forall i :: 0 <= i < |ns| ==> vs[i] == Int(ns[i])
  {
    seq(|ns|, i requires 0 <= i < |ns| => Int(ns[i]))
  }

  /** The class-level defaults: 5 ms sleep, a transparent black background
      and an RGBA8888 window configuration. */
  const DEFAULT_OPTS: Options := map[
    MainLoopSleep := Float(0.005),
    DefaultBackgroundColor := Array([Float(0.0), Float(0.0), Float(0.0), Float(0.0)]),
    EglConfigAttributes := Array(IntValues(Egl.RGBA8888_WINDOW_ATTRIBUTES))
  ]

  // ---------------------------------------------------------------------
  // Options

  /** `Hash#merge`: the user's options override the defaults key by key. */
  function MergeOptions(defaults: Options, user: Options): (r: Options)
    ensures r.Keys == defaults.Keys + user.Keys
    ensures forall k :: k in user ==> r[k] == user[k]
    ensures forall k :: k in defaults && k !in user ==> r[k] == defaults[k]
  {
    defaults + user
  }

  /** Merging again with the same user options changes nothing, and merging
      no user options gives the defaults. */
  lemma MergeIdempotent(defaults: Options, user: Options)
    ensures MergeOptions(MergeOptions(defaults, user), user) == MergeOptions(defaults, user)
    ensures MergeOptions(defaults, map[]) == defaults
  {
  }

  /** Ruby's `!=` between an Integer and a Float compares numerically, so a
      Float 12344.0 counts as `EGL_NONE` too. */
  predicate IsEglNone(v: Value) {
    v == Int(Egl.EGL_NONE) || v == Float(Egl.EGL_NONE as real)
  }

  /** `attrs.last == EGL_NONE`; `last` of an empty array is `nil`. */
  predicate EndsWithNone(attrs: seq<Value>) {
    |attrs| > 0 && IsEglNone(attrs[|attrs| - 1])
  }

  /** The attribute list after `checkopts`: unchanged when it already ends
      with `EGL_NONE`, otherwise with one `EGL_NONE` appended. */
  function TerminateAttributes(attrs: seq<Value>): (r: seq<Value>)
    ensures EndsWithNone(r)
    ensures attrs <= r && |r| <= |attrs| + 1
    ensures EndsWithNone(attrs) ==> r == attrs
  {
    if EndsWithNone(attrs) then attrs else attrs + [Int(Egl.EGL_NONE)]
  }

  /** Terminating is idempotent. */
  lemma TerminateIdempotent(attrs: seq<Value>)
    ensures TerminateAttributes(TerminateAttributes(attrs)) == TerminateAttributes(attrs)
  {
  }

  /** The terminated list is the shortest extension of the input that ends
      with `EGL_NONE`: nothing is appended that did not have to be. */
  lemma TerminateIsShortest(attrs: seq<Value>, ext: seq<Value>)
    requires attrs <= ext && EndsWithNone(ext)
    ensures |TerminateAttributes(attrs)| <= |ext|
  {
    if !EndsWithNone(attrs) {
      assert attrs != ext;
    }
  }

  /** The options after `checkopts` and whether it warned. */
  datatype Checked = Checked(opts: Options, warned: bool)

  /** `checkopts`: `last` is sent to whatever `:egl_config_attributes`
      holds, so a missing or non-array value raises `NoMethodError`. */
  function CheckOpts(opts: Options): (r: Result<Checked, Error>)
    ensures r.Ok? <==> EglConfigAttributes in opts && opts[EglConfigAttributes].Array?
    ensures r.Err? ==> r.error == NoMethodError
    ensures r.Ok? ==>
      var attrs := opts[EglConfigAttributes].items;
      && r.value.opts.Keys == opts.Keys
      && (forall k :: k in opts && k != EglConfigAttributes ==> r.value.opts[k] == opts[k])
      && r.value.opts[EglConfigAttributes] == Array(TerminateAttributes(attrs))
      && (r.value.warned <==> !EndsWithNone(attrs))
  {
    if EglConfigAttributes !in opts || !opts[EglConfigAttributes].Array? then Err(NoMethodError)
    else
      var attrs := opts[EglConfigAttributes].items;
      if EndsWithNone(attrs) then Ok(Checked(opts, false))
      else Ok(Checked(opts[EglConfigAttributes := Array(attrs + [Int(Egl.EGL_NONE)])], true))
  }

  /** `initialize` up to `init_opengl`: merge with the defaults, then check.
      Only a user-supplied non-Array attribute list can make it raise; every
      other option is the user's if given, else the default; the attribute
      list is the user's (else the default) terminated with `EGL_NONE`. */
  function Initialize(user: Options): (r: Result<Checked, Error>)
    ensures r.Ok? <==> EglConfigAttributes !in user || user[EglConfigAttributes].Array?
    ensures r.Err? ==> r.error == NoMethodError
    ensures r.Ok? ==> r.value.opts.Keys == DEFAULT_OPTS.Keys + user.Keys
    ensures r.Ok? ==> forall k :: k in user && k != EglConfigAttributes ==> r.value.opts[k] == user[k]
    ensures r.Ok? ==> forall k :: k in DEFAULT_OPTS && k !in user && k != EglConfigAttributes ==>
      r.value.opts[k] == DEFAULT_OPTS[k]
    ensures r.Ok? ==>
      var given := if EglConfigAttributes in user then user[EglConfigAttributes] else DEFAULT_OPTS[EglConfigAttributes];
      r.value.opts[EglConfigAttributes] == Array(TerminateAttributes(given.items))
  {
    CheckOpts(MergeOptions(DEFAULT_OPTS, user))
  }

  /** Without a user override the default attribute list is used as is and
      no warning is issued; the other defaults survive unless overridden. */
  lemma InitializeDefaults(user: Options)
    requires EglConfigAttributes !in user
    ensures Initialize(user).Ok?
    ensures !Initialize(user).value.warned
    ensures Initialize(user).value.opts[EglConfigAttributes] == DEFAULT_OPTS[EglConfigAttributes]
    ensures forall k :: k in DEFAULT_OPTS && k !in user ==> Initialize(user).value.opts[k] == DEFAULT_OPTS[k]
  {
    var attrs := IntValues(Egl.RGBA8888_WINDOW_ATTRIBUTES);
    assert attrs[|attrs| - 1] == Int(Egl.EGL_NONE);
  }

  /** Whatever array the user supplies, once initialised it ends with
      `EGL_NONE` and keeps the user's entries as its prefix. */
  lemma InitializeTerminates(user: Options)
    requires EglConfigAttributes in user && user[EglConfigAttributes].Array?
    ensures Initialize(user).Ok?
    ensures EndsWithNone(Initialize(user).value.opts[EglConfigAttributes].items)
    ensures user[EglConfigAttributes].items <= Initialize(user).value.opts[EglConfigAttributes].items
  {
  }

  // ---------------------------------------------------------------------
  // Main-loop housekeeping

  /** The instance variables `loop` maintains: frames since the last
      second, the wall-clock second of the last report, the last frame
      rate, the time of the current frame and the `:new_second` event. */
  datatype Housekeeping = Housekeeping(
    counter: nat,
    lastSecond: int,
    fps: nat,
    time: Option<int>,
    newSecond: bool)

  /** The `||=` initialisation of the first call, reading the clock once. */
  function Start(reading: int): (h: Housekeeping)
    ensures h.counter == 0 && h.fps == 0 && !h.newSecond && h.lastSecond == reading
  {
    Housekeeping(0, reading, 0, None, false)
  }

  /** One frame of `loop` at wall-clock second `now`: the events are
      cleared, the frame is counted, and once a second has passed the count
      becomes the frame rate and `:new_second` is raised. */
  function Step(h: Housekeeping, now: int): (r: Housekeeping)
    ensures r.time == Some(now)
    ensures r.newSecond <==> now - h.lastSecond >= 1
    ensures r.newSecond ==> r.fps == h.counter + 1 && r.counter == 0 && r.lastSecond == now
    ensures !r.newSecond ==> r.counter == h.counter + 1 && r.fps == h.fps && r.lastSecond == h.lastSecond
  {
    var counter := h.counter + 1;
    if now - h.lastSecond >= 1 then Housekeeping(0, now, counter, Some(now), true)
    else Housekeeping(counter, h.lastSecond, h.fps, Some(now), false)
  }

  /** `loop`: on the very first call the state is initialised from one
      clock reading, and the frame is then timed by a second reading. */
  function Loop(h: Option<Housekeeping>, firstReading: int, now: int): (r: Housekeeping)
    ensures h.None? ==> r.newSecond == (now - firstReading >= 1)
    ensures h.None? && r.newSecond ==> r.fps == 1
    ensures h.None? && !r.newSecond ==> r.counter == 1 && r.fps == 0
    ensures h.Some? ==> r == Run(h.value, [now])
  {
    Step(if h.None? then Start(firstReading) else h.value, now)
  }

  /** The housekeeping after running frames at the given clock readings. */
  function Run(h: Housekeeping, times: seq<int>): Housekeeping
    decreases |times|
  {
    if |times| == 0 then h else Run(Step(h, times[0]), times[1..])
  }

  /** The total of the frame rates reported while running those frames. */
  function Reported(h: Housekeeping, times: seq<int>): nat
    decreases |times|
  {
    if |times| == 0 then 0
    else
      var next := Step(h, times[0]);
      (if next.newSecond then next.fps else 0) + Reported(next, times[1..])
  }

  /** No frame is lost or counted twice: every frame is either in a
      reported frame rate or still in the counter. */
  lemma {:induction false} FramesAreCounted(h: Housekeeping, times: seq<int>)
    ensures Reported(h, times) + Run(h, times).counter == h.counter + |times|
    decreases |times|
  {
    if |times| > 0 {
      FramesAreCounted(Step(h, times[0]), times[1..]);
    }
  }

  /** On a clock that does not go backwards the last report is never in
      the future and never moves backwards. */
  lemma LastSecondMonotone(h: Housekeeping, now: int)
    requires h.lastSecond <= now
    ensures Step(h, now).lastSecond <= now
    ensures h.lastSecond <= Step(h, now).lastSecond
  {
  }

  /** The clock readings of the frames that raised `:new_second`. */
  function ReportTimes(h: Housekeeping, times: seq<int>): seq<int>
    decreases |times|
  {
    if |times| == 0 then []
    else
      var next := Step(h, times[0]);
      (if next.newSecond then [times[0]] else []) + ReportTimes(next, times[1..])
  }

  /** Whatever the clock does, reports are raised at most once per
      wall-clock second: each comes at least a second after the previous
      one (the first at least a second after `last_second`), and the run
      ends with `last_second` at the latest report. */
  lemma {:induction false} ReportsAtMostOncePerSecond(h: Housekeeping, times: seq<int>)
    ensures var reports := ReportTimes(h, times);
      && (|reports| > 0 ==> h.lastSecond + 1 <= reports[0])
      && (forall i :: 0 <= i < |reports| - 1 ==> reports[i] + 1 <= reports[i + 1])
      && Run(h, times).lastSecond == (if |reports| > 0 then reports[|reports| - 1] else h.lastSecond)
    decreases |times|
  {
    if |times| > 0 {
      var next := Step(h, times[0]);
      ReportsAtMostOncePerSecond(next, times[1..]);
      var rest := ReportTimes(next, times[1..]);
      if next.newSecond {
        var reports := [times[0]] + rest;
        assert ReportTimes(h, times) == reports;
        assert forall i :: 1 <= i < |reports| ==> reports[i] == rest[i - 1];
      } else {
        assert ReportTimes(h, times) == rest;
      }
    }
  }

  /** The line both demos print from `tick` when `:new_second` is set. */
  function FpsReport(h: Housekeeping): (line: Option<string>)
    ensures line.Some? <==> h.newSecond
    ensures line.Some? ==>
      && 5 < |line.value| && line.value[..5] == "FPS: "
      && var digits := line.value[5..];
      && (forall i :: 0 <= i < |digits| ==> Digits.IsDigit(digits[i], 10))
      && Digits.Parse(digits, 10) == h.fps
  {
    if h.newSecond then
      var digits := Digits.Decimal(h.fps);
      Digits.ParseRender(h.fps, 10);
      assert ("FPS: " + digits)[5..] == digits;
      Some("FPS: " + digits)
    else None
  }

  // ---------------------------------------------------------------------
  // Surface dimensions and dispmanx rectangles

  /** `opts[key] || screen || 0`: the option when it is truthy, otherwise
      the screen dimension once known, otherwise 0. */
  function Dimension(opts: Options, key: Key, screen: Option<int>): (r: Value)
    ensures Truthy(r)
    ensures key in opts && Truthy(opts[key]) ==> r == opts[key]
    ensures !(key in opts && Truthy(opts[key])) ==> r == Int(if screen.Some? then screen.value else 0)
  {
    if key in opts && Truthy(opts[key]) then opts[key]
    else if screen.Some? then Int(screen.value)
    else Int(0)
  }

  /** `width`: the `:width` option, else the screen width, else 0. */
  function Width(opts: Options, screenWidth: Option<int>): (r: Value)
    ensures Truthy(r)
    ensures !(WidthKey in opts && Truthy(opts[WidthKey])) && screenWidth.Some? ==> r == Int(screenWidth.value)
    ensures !(WidthKey in opts && Truthy(opts[WidthKey])) && screenWidth.None? ==> r == Int(0)
    ensures WidthKey in opts && Truthy(opts[WidthKey]) ==> r == opts[WidthKey]
  {
    Dimension(opts, WidthKey, screenWidth)
  }

  /** `height`: the `:height` option, else the screen height, else 0. */
  function Height(opts: Options, screenHeight: Option<int>): (r: Value)
    ensures Truthy(r)
    ensures !(HeightKey in opts && Truthy(opts[HeightKey])) && screenHeight.Some? ==> r == Int(screenHeight.value)
    ensures !(HeightKey in opts && Truthy(opts[HeightKey])) && screenHeight.None? ==> r == Int(0)
    ensures HeightKey in opts && Truthy(opts[HeightKey]) ==> r == opts[HeightKey]
  {
    Dimension(opts, HeightKey, screenHeight)
  }

  /** FFI's conversion of a Ruby value written into a C `int` field or
      array: Integers must fit, Floats are truncated, anything else is a
      `TypeError`. */
  function ToCInt(v: Value): (r: Result<int, Error>)
    ensures r.Ok? ==> InInt32(r.value)
    ensures v.Int? && InInt32(v.i) ==> r == Ok(v.i)
    ensures v.Int? && !InInt32(v.i) ==> r == Err(RangeError)
    ensures v.Float? ==> r == (if InInt32(Truncate(v.f)) then Ok(Truncate(v.f)) else Err(RangeError))
    ensures (v.Nil? || v.Bool? || v.Array?) ==> r == Err(TypeError)
  {
    match v
    case Int(n) => if InInt32(n) then Ok(n) else Err(RangeError)
    case Float(x) => if InInt32(Truncate(x)) then Ok(Truncate(x)) else Err(RangeError)
    case _ => Err(TypeError)
  }

  /** `v << 16`: on an Integer it multiplies by 2^16, negative numbers
      included; on an Array it is `Array#<<`, which appends 16; nil, true,
      false and Floats have no `<<`. */
  function ShiftLeft16(v: Value): (r: Result<Value, Error>)
    ensures r.Ok? <==> v.Int? || v.Array?
    ensures v.Int? ==> r == Ok(Int(v.i * FIXED_ONE))
    ensures v.Array? ==> r == Ok(Array(v.items + [Int(16)]))
    ensures (v.Nil? || v.Bool? || v.Float?) ==> r == Err(NoMethodError)
  {
    match v
    case Int(n) => Ok(Int(n * FIXED_ONE))
    case Array(items) => Ok(Array(items + [Int(16)]))
    case _ => Err(NoMethodError)
  }

  /** 1.0 in 16.16 fixed point. */
  const FIXED_ONE: int := 0x1_0000

  /** The integer part of a 16.16 fixed-point number. */
  function FixedToInt(f: int): int
  {
    f / FIXED_ONE
  }

  /** A `VC_RECT_T`. */
  datatype Rect = Rect(x: int, y: int, width: int, height: int)

  /** The rectangles of `init_opengl`: the destination covers the surface in
      pixels, the source is the same area in 16.16 fixed point. Fields are
      assigned in the order dst, then src, and the first failing one raises. */
  function InitRects(width: Value, height: Value): (r: Result<(Rect, Rect), Error>)
    ensures r.Ok? <==> width.Int? && height.Int? && InInt32(width.i * FIXED_ONE) && InInt32(height.i * FIXED_ONE)
    ensures r.Ok? ==>
      && r.value.0 == Rect(0, 0, width.i, height.i)
      && r.value.1 == Rect(0, 0, width.i * FIXED_ONE, height.i * FIXED_ONE)
  {
    match ToCInt(width)
    case Err(e) => Err(e)
    case Ok(dstWidth) =>
      match ToCInt(height)
      case Err(e) => Err(e)
      case Ok(dstHeight) =>
        match ShiftLeft16(width)
        case Err(e) => Err(e)
        case Ok(w) =>
          match ToCInt(w)
          case Err(e) => Err(e)
          case Ok(srcWidth) =>
            match ShiftLeft16(height)
            case Err(e) => Err(e)
            case Ok(h) =>
              match ToCInt(h)
              case Err(e) => Err(e)
              case Ok(srcHeight) =>
                FixedRangeImpliesIntRange(width.i);
                FixedRangeImpliesIntRange(height.i);
                Ok((Rect(0, 0, dstWidth, dstHeight), Rect(0, 0, srcWidth, srcHeight)))
  }

  /** Without truthy `:width` and `:height` options (absent, `nil` or
      `false`) the destination rectangle is the whole screen and the source
      rectangle the same in 16.16 fixed point, for any screen up to 32767
      pixels a side. */
  lemma DefaultRectsCoverScreen(opts: Options, screenWidth: int, screenHeight: int)
    requires !(WidthKey in opts && Truthy(opts[WidthKey])) && !(HeightKey in opts && Truthy(opts[HeightKey]))
    requires 0 <= screenWidth < 0x8000 && 0 <= screenHeight < 0x8000
    ensures InitRects(Width(opts, Some(screenWidth)), Height(opts, Some(screenHeight)))
      == Ok((Rect(0, 0, screenWidth, screenHeight),
             Rect(0, 0, screenWidth * FIXED_ONE, screenHeight * FIXED_ONE)))
  {
  }

  lemma FixedRangeImpliesIntRange(n: int)
    ensures InInt32(n * FIXED_ONE) ==> InInt32(n) && -0x8000 <= n < 0x8000
  {
  }

  /** Decoding the source rectangle's fixed-point size gives back the
      destination's pixel size: both rectangles describe the same area. */
  lemma {:induction false} SourceRectDecodes(width: Value, height: Value)
    requires InitRects(width, height).Ok?
    ensures var (dst, src) := InitRects(width, height).value;
      FixedToInt(src.width) == dst.width && FixedToInt(src.height) == dst.height
      && src.width % FIXED_ONE == 0 && src.height % FIXED_ONE == 0
  {
  }

  // ---------------------------------------------------------------------
  // Buffers

  /** An `FFI::MemoryPointer` with the element type it was allocated for. */
  datatype Buffer = CharBuffer(bytes: seq<byte>) | IntBuffer(ints: seq<int>) | FloatBuffer(floats: seq<real>)

  function BufferSize(b: Buffer): nat
  {
    match b
    case CharBuffer(bytes) => |bytes|
    case IntBuffer(ints) => |ints|
    case FloatBuffer(floats) => |floats|
  }

  /** `load_texture_from_string`: a char buffer the size of the string
      holding its bytes. */
  function LoadTextureFromString(data: seq<byte>): (buf: Buffer)
    ensures buf.CharBuffer? && BufferSize(buf) == |data|
    ensures forall i :: 0 <= i < |data| ==> buf.bytes[i] == data[i]
  {
    CharBuffer(data)
  }

  /** `load_texture_from_file`, with the file system given as a map from
      path to contents. */
  function LoadTextureFromFile(files: map<string, seq<byte>>, path: string): (r: Result<Buffer, Error>)
    ensures r.Ok? <==> path in files
    ensures r.Ok? ==> r.value == LoadTextureFromString(files[path])
    ensures r.Err? ==> r.error == NoSuchFile(path)
  {
    if path in files then Ok(LoadTextureFromString(files[path])) else Err(NoSuchFile(path))
  }

  /** FFI's conversion of a Ruby value written into a C `float`. */
  function ToCFloat(v: Value): (r: Result<real, Error>)
    ensures v.Float? ==> r == Ok(v.f)
    ensures v.Int? ==> r == Ok(v.i as real)
    ensures !(v.Float? || v.Int?) ==> r == Err(TypeError)
  {
    match v
    case Float(x) => Ok(x)
    case Int(n) => Ok(n as real)
    case _ => Err(TypeError)
  }

  /** `write_array_of_int`: every element converted, or the first failure. */
  function ToCInts(vs: seq<Value>): (r: Result<seq<int>, Error>)
    ensures r.Ok? <==> forall i :: 0 <= i < |vs| ==> ToCInt(vs[i]).Ok?
    ensures r.Ok? ==> |r.value| == |vs| && forall i :: 0 <= i < |vs| ==> ToCInt(vs[i]) == Ok(r.value[i])
    ensures r.Err? ==>
      exists i :: 0 <= i < |vs| && ToCInt(vs[i]) == Err(r.error) && forall j :: 0 <= j < i ==> ToCInt(vs[j]).Ok?
    decreases |vs|
  {
    if |vs| == 0 then Ok([])
    else
      match ToCInt(vs[0])
      case Err(e) => Err(e)
      case Ok(n) =>
        match ToCInts(vs[1..])
        case Err(e) => Err(e)
        case Ok(ns) => Ok([n] + ns)
  }

  /** `write_array_of_float`: every element converted, or the first failure. */
  function ToCFloats(vs: seq<Value>): (r: Result<seq<real>, Error>)
    ensures r.Ok? <==> forall i :: 0 <= i < |vs| ==> ToCFloat(vs[i]).Ok?
    ensures r.Ok? ==> |r.value| == |vs| && forall i :: 0 <= i < |vs| ==> ToCFloat(vs[i]) == Ok(r.value[i])
    ensures r.Err? ==>
      exists i :: 0 <= i < |vs| && ToCFloat(vs[i]) == Err(r.error) && forall j :: 0 <= j < i ==> ToCFloat(vs[j]).Ok?
    decreases |vs|
  {
    if |vs| == 0 then Ok([])
    else
      match ToCFloat(vs[0])
      case Err(e) => Err(e)
      case Ok(x) =>
        match ToCFloats(vs[1..])
        case Err(e) => Err(e)
        case Ok(xs) => Ok([x] + xs)
  }

  /** The `Fixnum` range of Ruby 1.9 on the Pi's 32-bit ARM: 31-bit signed.
      Larger integers are `Bignum`s and do not match `when Fixnum`. */
  const FIXNUM_MIN: int := -0x4000_0000
  const FIXNUM_MAX: int := 0x3FFF_FFFF

  predicate IsFixnum(v: Value) {
    v.Int? && FIXNUM_MIN <= v.i <= FIXNUM_MAX
  }

  /** `load_coords_from_array`: the first element chooses an int or a float
      buffer; an empty array or any other first element gives `nil`. */
  function LoadCoords(coords: seq<Value>): (r: Result<Option<Buffer>, Error>)
    ensures r == Ok(None) <==> |coords| == 0 || !(IsFixnum(coords[0]) || coords[0].Float?)
    ensures r.Ok? && r.value.Some? ==> BufferSize(r.value.value) == |coords|
    ensures r.Ok? && r.value.Some? ==> (r.value.value.IntBuffer? <==> IsFixnum(coords[0]))
    ensures r.Ok? && r.value.Some? ==> (r.value.value.FloatBuffer? <==> coords[0].Float?)
    ensures r.Ok? && r.value.Some? && r.value.value.IntBuffer? ==>
      forall i :: 0 <= i < |coords| ==> ToCInt(coords[i]) == Ok(r.value.value.ints[i])
    ensures r.Ok? && r.value.Some? && r.value.value.FloatBuffer? ==>
      forall i :: 0 <= i < |coords| ==> ToCFloat(coords[i]) == Ok(r.value.value.floats[i])
    ensures |coords| > 0 && IsFixnum(coords[0]) ==>
      (r.Err? <==> exists i :: 0 <= i < |coords| && ToCInt(coords[i]).Err?)
    ensures |coords| > 0 && coords[0].Float? ==>
      (r.Err? <==> exists i :: 0 <= i < |coords| && ToCFloat(coords[i]).Err?)
    ensures r.Err? && IsFixnum(coords[0]) ==>
      exists i :: 0 <= i < |coords| && ToCInt(coords[i]) == Err(r.error) && forall j :: 0 <= j < i ==> ToCInt(coords[j]).Ok?
    ensures r.Err? && coords[0].Float? ==>
      exists i :: 0 <= i < |coords| && ToCFloat(coords[i]) == Err(r.error) && forall j :: 0 <= j < i ==> ToCFloat(coords[j]).Ok?
  {
    if |coords| == 0 then Ok(None)
    else if IsFixnum(coords[0]) then
      match ToCInts(coords)
      case Err(e) => Err(e)
      case Ok(ns) => Ok(Some(IntBuffer(ns)))
    else if coords[0].Float? then
      match ToCFloats(coords)
      case Err(e) => Err(e)
      case Ok(xs) => Ok(Some(FloatBuffer(xs)))
    else Ok(None)
  }

  /** An array of Fixnums loads into an int buffer holding exactly those
      numbers, and an array of Floats into a float buffer holding them. */
  lemma {:induction false} LoadCoordsHomogeneous(coords: seq<Value>)
    requires |coords| > 0
    ensures (forall i :: 0 <= i < |coords| ==> IsFixnum(coords[i])) ==>
      LoadCoords(coords) == Ok(Some(IntBuffer(seq(|coords|, i requires 0 <= i < |coords| => coords[i].i))))
    ensures (forall i :: 0 <= i < |coords| ==> coords[i].Float?) ==>
      LoadCoords(coords) == Ok(Some(FloatBuffer(seq(|coords|, i requires 0 <= i < |coords| => coords[i].f))))
  {
    if forall i :: 0 <= i < |coords| ==> IsFixnum(coords[i]) {
      assert forall i :: 0 <= i < |coords| ==> ToCInt(coords[i]) == Ok(coords[i].i);
      var r := LoadCoords(coords);
      assert r.Ok? && r.value.Some? && r.value.value.IntBuffer?;
      assert r.value.value.ints == seq(|coords|, i requires 0 <= i < |coords| => coords[i].i);
    }
    if forall i :: 0 <= i < |coords| ==> coords[i].Float? {
      var r := LoadCoords(coords);
      assert r.Ok? && r.value.Some? && r.value.value.FloatBuffer?;
      assert r.value.value.floats == seq(|coords|, i requires 0 <= i < |coords| => coords[i].f);
    }
  }

  /** A Ruby Array of Floats. */
  function Floats(xs: seq<real>): (vs: seq<Value>)
    ensures |vs| == |xs| && forall i :: 0 <= i < |xs| ==> vs[i] == Float(xs[i])
  {
    seq(|xs|, i requires 0 <= i < |xs| => Float(xs[i]))
  }

  /** Coordinates given as Floats load into a float buffer holding exactly
      those numbers. */
  lemma FloatsLoad(xs: seq<real>)
    requires |xs| > 0
    ensures LoadCoords(Floats(xs)) == Ok(Some(FloatBuffer(xs)))
  {
    var coords := Floats(xs);
    LoadCoordsHomogeneous(coords);
    assert seq(|coords|, i requires 0 <= i < |coords| => coords[i].f) == xs;
  }

  // ---------------------------------------------------------------------
  // Errors

  datatype Outcome = Pass | Fail(error: Error)

  /** `assert`: raise `RaspiGLError` with the message exactly when the
      condition is false. */
  function Assert(condition: bool, message: Option<string>): (r: Outcome)
    ensures r.Fail? <==> !condition
    ensures r.Fail? ==> r.error == RaspiGLError(message)
  {
    if condition then Pass else Fail(RaspiGLError(message))
  }

  const EGL_ERROR_PREFIX: string := "eglGetError returned 0x"

  /** `"eglGetError returned 0x%x" % code`. */
  function EglErrorText(code: nat): string
  {
    EGL_ERROR_PREFIX + Digits.Hex(code)
  }

  /** The message `assert_egl` hands to `assert`. */
  function AssertEglMessage(message: Option<string>, code: nat): (m: string)
    ensures message.None? ==> m == EglErrorText(code)
    ensures message.Some? ==> m == message.value + " (" + EglErrorText(code) + ")"
  {
    var egl := EglErrorText(code);
    if message.Some? then message.value + " (" + egl + ")" else egl
  }

  /** `assert_egl`: `code` is what `eglGetError` returns; it is read whether
      or not the condition holds. */
  function AssertEgl(condition: bool, message: Option<string>, code: nat): (r: Outcome)
    ensures r.Fail? <==> !condition
    ensures r.Fail? ==> r.error == RaspiGLError(Some(AssertEglMessage(message, code)))
  {
    Assert(condition, Some(AssertEglMessage(message, code)))
  }

  /** The EGL error code can be read back out of the message: it is the hex
      number right after the prefix, before the closing parenthesis when a
      caller message is present. */
  lemma {:induction false} EglCodeRecoverable(message: Option<string>, code: nat)
    ensures var m := AssertEglMessage(message, code);
      var start := if message.Some? then |message.value| + 2 + |EGL_ERROR_PREFIX| else |EGL_ERROR_PREFIX|;
      var end := if message.Some? then |m| - 1 else |m|;
      && start <= end <= |m|
      && m[start..end] == Digits.Hex(code)
      && Digits.Parse(m[start..end], 16) == code
  {
    Digits.ParseRender(code, 16);
    var m := AssertEglMessage(message, code);
    var hex := Digits.Hex(code);
    if message.Some? {
      assert m == message.value + " (" + EGL_ERROR_PREFIX + hex + ")";
      assert m[|message.value| + 2 + |EGL_ERROR_PREFIX|..|m| - 1] == hex;
    } else {
      assert m[|EGL_ERROR_PREFIX|..] == hex;
    }
  }
}
